=== FILE: README.md ===
# Stable Diffusion benchmark driver — a Dafny model

This project models the parts of tinygrad's `benchmarks/stable_diffusion.py` that can be stated as
exact rules, and it proves properties of them. The benchmark runs Stable Diffusion v1.4 once per prompt
from a CSV file. It times each run and writes a JSON summary that keeps the first (warm-up) run apart
from the later ones.

The modules are:

- `Schedule` (`schedule.dfy`). The timestep list `range(1, 1000, 1000 // steps)` with Python's floor
  division and `range` semantics. It also covers the gather of the noise schedule at those timesteps and
  `alphas_prev`, the same list shifted right behind a leading 1.0.
- `Ddim` (`ddim.dfy`). Classifier-free guidance and the deterministic DDIM update (`sigma_t = 0`),
  modelled over the reals. The square root is a parameter that satisfies `SqrtLike`. The denoiser is a
  parameter that preserves the latent's length.
- `Sampling` (`sampling.dfy`). The reverse loop over `enumerate(timesteps)[::-1]`. Each step feeds the
  latent it produces into the next step.
- `VaeShapes` (`vae_shapes.dfy`). The channel and spatial-size calculus of `ResnetBlock`, `AttnBlock`,
  `Mid`, `Encoder`, `Decoder` and `AutoencoderKL`. The networks are built from the same stage tables as
  `benchmarks/stable_diffusion.py`. A layer applied to a feature map with the wrong width or an empty spatial size yields an
  error.
- `Upsample` (`upsample.dfy`). The decoder's replicate-and-reshape upsample on data: first on one channel's grid, then on every channel of a feature map.
- `Filename` (`filename.dfy`). The file name built from a prompt.
- `Benchmark` (`benchmark.dfy`). Per-prompt seeds, the per-prompt record `(elapsed, peak memory,
  iterations per second)`, the first/subsequent split, and the summary's average, minimum and maximum.
- `Wrappers` (`wrappers.dfy`). `Option` and `Result`.
- `Seqs` (`seqs.dfy`). Python's `s[::-1]`, shared by `Sampling` and `VaeShapes`.

## Model

| member | source | states |
|---|---|---|
| Schedule.Timesteps | benchmarks/stable_diffusion.py:248 | `steps == 0` is a division error. `steps > 1000` makes the stride 0, which `range` rejects. A negative `steps` gives an empty list. Otherwise the list is non-empty and starts at 1. |
| Schedule.TimestepsShape | benchmarks/stable_diffusion.py:248 | For `1 <= steps <= 1000` the list is `1, 1 + s, 1 + 2s, ...` with `s = 1000 // steps`, every entry below 1000. Its length is `998 // s + 1`. |
| Schedule.TimestepsAtLeastSteps | benchmarks/stable_diffusion.py:248 | For `1 <= steps <= 999` the list has at least `steps` entries. |
| Schedule.TimestepsIndexSchedule | benchmarks/stable_diffusion.py:248-249 | Every timestep is a valid index into the 1000-entry `alphas_cumprod`. |
| Schedule.TimestepsIncreasing | benchmarks/stable_diffusion.py:248 | The timesteps strictly increase. |
| Schedule.TimestepsSixHasSeven | benchmarks/stable_diffusion.py:248 | With the default `--steps 6` the list is `[1, 167, 333, 499, 665, 831, 997]`, which is seven entries. |
| Schedule.TimestepsSevenHasEight | benchmarks/stable_diffusion.py:248 | `steps = 7` gives eight timesteps, `[1, 143, ..., 995]`. |
| Schedule.TimestepsThousandHas999 | benchmarks/stable_diffusion.py:248 | `steps = 1000` gives 999 timesteps. |
| Schedule.IntendedTimesteps | benchmarks/stable_diffusion.py:248 | The corrected schedule fails exactly when `Timesteps` fails, is empty for negative `steps`, has exactly `steps` entries for `1 <= steps <= 999`, and whenever it succeeds it is a prefix of the list `Timesteps` gives. |
| Schedule.IntendedTimestepsSix | benchmarks/stable_diffusion.py:248 | With `steps = 6` the corrected schedule is exactly the six timesteps `[1, 167, 333, 499, 665, 831]`. |
| Schedule.Gather | benchmarks/stable_diffusion.py:249 | `alphas[k]` is the schedule value at `timesteps[k]`, and there is one value per timestep. |
| Schedule.AlphasPrev | benchmarks/stable_diffusion.py:250 | `alphas_prev[0] = 1.0` and `alphas_prev[i] = alphas[i - 1]`. The length is that of `alphas`, or 1 when `alphas` is empty. |
| Schedule.AlphasPrevShiftInverse | benchmarks/stable_diffusion.py:250 | Dropping the leading 1.0 and appending the last alpha gives back `alphas`. |
| Schedule.GatheredAlphasDenoise | benchmarks/stable_diffusion.py:146-150 | Over a schedule in (0, 1] that strictly decreases, every alpha and previous alpha lies in (0, 1]. `alphas_prev[i]` exceeds `alphas[i]` for `i >= 1`, so each step moves to a less noisy level. |
| Ddim.Guide | benchmarks/stable_diffusion.py:194 | `e_u + w (e_c - e_u)` is the affine combination `(1 - w) e_u + w e_c`. Scale 1 gives the conditional estimate and scale 0 the unconditional one. Equal estimates are left unchanged. |
| Ddim.GuideAffineInScale | benchmarks/stable_diffusion.py:194 | Guidance is affine in the scale. |
| Ddim.PredX0 | benchmarks/stable_diffusion.py:181-182 | `pred_x0` is the clean value that, noised to level `a_t` with `e_t`, gives back `x`. At `a_t = 1` it is `x`. |
| Ddim.PredX0InvertsNoise | benchmarks/stable_diffusion.py:181-182 | Denoising a noised value with its own noise recovers the clean value. |
| Ddim.Step | benchmarks/stable_diffusion.py:179-185 | `x_prev` is `pred_x0` re-noised to level `a_prev` along the same noise. `a_prev = 1` returns `pred_x0`, `a_prev = a_t` returns `x`, and zero noise rescales `x` by `sqrt(a_prev) / sqrt(a_t)`. |
| Ddim.StepFollowsNoisePath | benchmarks/stable_diffusion.py:179-185 | Given the true noise, one step lands exactly on the clean value noised to `a_prev`. |
| Ddim.GuideLatent | benchmarks/stable_diffusion.py:193-194 | Guidance applies elementwise, and scales 1 and 0 pick the conditional and unconditional rows. |
| Ddim.StepLatent | benchmarks/stable_diffusion.py:179-185 | The update applies elementwise over a latent: the inversion and re-noising relations hold at every index. |
| Ddim.ModelOutput | benchmarks/stable_diffusion.py:187-195 | A batch of two is run against `[uncond; cond]`, and the result keeps the latent's length. Every element is `e_u + w (e_c - e_u)`, where `e_u` and `e_c` are the denoiser's outputs under the unconditional and conditional contexts, for every scale `w`. Scale 1 gives the conditional output and scale 0 the unconditional one. |
| Ddim.ModelOutputSwapContexts | benchmarks/stable_diffusion.py:191-194 | Exchanging the two contexts and replacing `w` by `1 - w` gives the same estimate. |
| Ddim.DiffusionStep | benchmarks/stable_diffusion.py:204-207 | A step keeps the latent's length. Every element is `x_prev`, that is the DDIM `pred_x0` of the guided estimate re-noised to level `a_prev`, for every `a_prev`. With `a_prev = 1` it returns the step's `pred_x0`. |
| Ddim.DiffusionStepFollowsNoisePath | benchmarks/stable_diffusion.py:204-207 | When the guided estimate is the true noise of the latent at level `a_t`, the step lands on the same clean latent noised to level `a_prev`. |
| Sampling.VisitsOrder | benchmarks/stable_diffusion.py:281 | The loop visits every index of `timesteps` exactly once, in strictly descending order, paired with its own timestep. |
| Sampling.Sample | benchmarks/stable_diffusion.py:281-289 | The loop's final latent is the chain of steps from the last index down to 0, each step consuming the previous output. The trace lists `(step_idx, tval)` from the last index down. |
| Sampling.FinalStepIsPredX0 | benchmarks/stable_diffusion.py:250 | The last step is index 0, where `alphas_prev[0] = 1`, so the final latent is that step's `pred_x0`. |
| VaeShapes.Conv3x3KeepsSize | benchmarks/stable_diffusion.py:42 | A 3x3 convolution with padding 1 keeps every non-empty size. |
| VaeShapes.DownsampleHalves | benchmarks/stable_diffusion.py:113 | The stride-2 downsample with padding `(0,1,0,1)` maps a size `n >= 2` to `n // 2` and rejects smaller ones. |
| VaeShapes.NewResnetBlock | benchmarks/stable_diffusion.py:40-45 | The shortcut is the identity exactly when the widths agree, and a 1x1 projection otherwise. |
| VaeShapes.ResnetShape | benchmarks/stable_diffusion.py:39-50 | `ResnetBlock(cin, cout)` maps `(cin, h, w)` to `(cout, h, w)` and fails on any other width or an empty map. |
| VaeShapes.AttnShape | benchmarks/stable_diffusion.py:23-37 | `AttnBlock(c)` succeeds exactly on a `c`-channel map with non-zero height and width, and then returns a map of the same shape as its input. |
| VaeShapes.MidShape | benchmarks/stable_diffusion.py:52-59 | `Mid(c)` (resnet, attention, resnet) keeps the shape of a non-empty `c`-channel map and rejects everything else. |
| VaeShapes.ChainBlocksShape | benchmarks/stable_diffusion.py:70-74 | Resnet blocks chained by width take the first width to the last and keep the spatial size. |
| VaeShapes.EncoderWiring | benchmarks/stable_diffusion.py:99-118 | The encoder stages chain 128 -> 128 -> 256 -> 512 -> 512 from `conv_in` into `Mid(512)`. Stages 0 to 2 end in the downsample and stage 3 does not. |
| VaeShapes.DownStageShape | benchmarks/stable_diffusion.py:122-127 | A downsampling stage `a -> b` maps `(a, h, w)` with `h, w >= 2` to `(b, h // 2, w // 2)`. |
| VaeShapes.EncoderShape | benchmarks/stable_diffusion.py:99-129 | The encoder accepts `(3, h, w)` exactly when `h, w >= 8`, and returns `(8, h // 8, w // 8)`. |
| VaeShapes.EncoderShape512 | benchmarks/stable_diffusion.py:99-129 | `(3, 512, 512)` encodes to `(8, 64, 64)`. |
| VaeShapes.DecoderWiring | benchmarks/stable_diffusion.py:61-81 | Processed as `up[::-1]`, the stages chain 512 -> 512 -> 512 -> 256 -> 128 into `norm_out(128)`. Every stage but the last processed one (`up[0]`) upsamples. |
| VaeShapes.UpStageShape | benchmarks/stable_diffusion.py:87-95 | A decoder stage `in -> out` maps `(in, h, w)` to `(out, 2h, 2w)`, or to `(out, h, w)` for stage 0. |
| VaeShapes.DecoderShape | benchmarks/stable_diffusion.py:83-97 | The decoder accepts `(4, h, w)` exactly when `h, w >= 1`, and returns `(3, 8h, 8w)`. |
| VaeShapes.DecoderShape64 | benchmarks/stable_diffusion.py:83-97 | `(4, 64, 64)` decodes to `(3, 512, 512)`. |
| VaeShapes.AutoencoderShape | benchmarks/stable_diffusion.py:131-144 | The autoencoder accepts `(3, h, w)` exactly when `h, w >= 8`, and returns `(3, 8 (h // 8), 8 (w // 8))`. The shape is preserved exactly when `h` and `w` are multiples of 8. |
| VaeShapes.LatentRoundTripShape | benchmarks/stable_diffusion.py:131-144 | A `(4, h, w)` latent taken through `post_quant_conv`, the decoder, the encoder, `quant_conv` and the means slice comes back as `(4, h, w)`. |
| Upsample.Upsample | benchmarks/stable_diffusion.py:92-93 | The reshaped grid has twice the rows, each twice as wide. |
| Upsample.UpsampleIndex | benchmarks/stable_diffusion.py:93 | The entry at `(r, c)` is the input entry at `(r // 2, c // 2)`, so each input entry fills a 2x2 block. |
| Upsample.DecimateUpsample | benchmarks/stable_diffusion.py:93 | Keeping every second row and column of the upsampled grid gives back the input grid. |
| Upsample.UpsampleMatchesShape | benchmarks/stable_diffusion.py:92-93 | Upsampling every channel of a `(c, h, w)` feature map gives a map of shape `(c, 2h, 2w)`, the shape rule the decoder uses. Entry `(r, c)` of each channel is that channel's input entry `(r // 2, c // 2)`. |
| Filename.Sanitize | benchmarks/stable_diffusion.py:305 | The stem keeps the first `min(len, 50)` characters. Each keeps an alphanumeric character and replaces anything else by `_`. |
| Filename.OutputFileName | benchmarks/stable_diffusion.py:305-307 | The name is the prompt's sanitised stem followed by `.png`, 4 to 54 characters long. |
| Filename.SanitizeIdempotent | benchmarks/stable_diffusion.py:305 | Sanitising a sanitised stem changes nothing. |
| Filename.SanitizeDependsOnPrefix | benchmarks/stable_diffusion.py:305 | Prompts that agree on their first 50 characters get the same file. |
| Filename.DistinctPromptsCollide | benchmarks/stable_diffusion.py:305-308 | `"a b"` and `"a-b"` both become `a_b.png`, so the later image overwrites the earlier one. |
| Benchmark.Peak | benchmarks/stable_diffusion.py:279-290 | The peak bounds every per-step memory reading and is 0 or one of them. |
| Benchmark.MakeRun | benchmarks/stable_diffusion.py:291-292 | The record fails, with `ZeroElapsed`, exactly when the elapsed time is 0. Otherwise `ips * elapsed = len(timesteps)`. |
| Benchmark.SeedFor | benchmarks/stable_diffusion.py:274-275 | A seed is set exactly when one is given, and it is the base seed plus the 1-based prompt index. |
| Benchmark.SeedsDistinct | benchmarks/stable_diffusion.py:274-275 | Different prompts get different seeds. |
| Benchmark.Partition | benchmarks/stable_diffusion.py:295-300 | Record 1 is the first run, and records 2..N are the subsequent runs in order. Together they give back all records. |
| Benchmark.RunPrompts | benchmarks/stable_diffusion.py:262-308 | The loop succeeds exactly when no elapsed time is 0, and otherwise fails with `ZeroElapsed`. On success it yields the first/subsequent split of all records and writes one file per prompt. On the first zero elapsed time, at prompt `k`, it stops with seeds `1..k` set and files `1..k-1` written. Seeds and files follow the prompt index. |
| Benchmark.MeanBetweenMinMax | benchmarks/stable_diffusion.py:318-324 | Over a non-empty list, `min <= mean <= max`. |
| Benchmark.Summarize | benchmarks/stable_diffusion.py:315-353 | The summary fails, with `NoRuns`, exactly when there is no first run. The first-run entry carries that run's time, rate and peak in GB. The subsequent-runs entry is present exactly when there are later runs, and then it describes them as `Benchmark.Describes` states: their count, and `min`, `statistics.mean` and `max` of their times, their peaks in GB and their rates. |
| Benchmark.LaterSummaryDescribes | benchmarks/stable_diffusion.py:317-324 | In the later-runs entry, min and max are attained by some later run and bound every later run. The average is the mean, and `min <= average <= max` for time, memory and rate. |
| Benchmark.SummaryOfRuns | benchmarks/stable_diffusion.py:295-353 | Over N records the summary exists exactly when N >= 1 and has a subsequent entry exactly when N >= 2, counting N - 1 runs. |
| Benchmark.SummaryExample | benchmarks/stable_diffusion.py:317-353 | Times 1, 2, 3 give a first run of 1, and later runs with average 2.5, min 2, max 3 over 2 runs. |

## Left out

- The real tensor numerics are not modelled: convolutions, GroupNorm, swish and attention. `VaeShapes` tracks only channel counts and spatial sizes. The batch dimension is fixed at 1.
- The float32 noise schedule `get_alphas_cumprod` (lines 146-150) is not computed. `Schedule.GatheredAlphasDenoise` assumes only that the schedule lies in (0, 1] and strictly decreases.
- All arithmetic is over exact reals. float32/float16 rounding, `--fp16` and the square root's value are left out: `sqrt` is a parameter that meets `Ddim.SqrtLike`.
- The UNet and the CLIP text encoder are external parameters, `Ddim.Denoiser` and the context vectors. The tokenizer, weight download and loading are I/O.
- `decode` (lines 197-202) is left out: the latent scaling by `1/0.18215`, the `[-1, 1] -> [0, 255]` clip and the uint8 cast are float numerics.
- `TinyJit`, `realize`, `GlobalCounters` and `time.perf_counter` are left out. Elapsed times and memory readings are inputs (`Benchmark.Measurement`).
- The CSV reading, argparse, the output-directory choice, image saving and display, printing, the JSON file and `round(..., 2)` are I/O or presentation only.
- Python's `str.isalnum` is Unicode-aware. `Filename` takes the character class as a parameter and supplies only an ASCII instance, `AsciiAlnum`.
- GroupNorm(32, c) needs `c` divisible by 32. The model does not check this, because every width used (128, 256, 512) satisfies it.
- Ddim.ModelOutput: it calls the denoiser once per batch row. This assumes the UNet treats the two rows of its batch independently, which the model cannot see.
- The random initial latent `Tensor.randn` is a parameter `x0` of `Sampling.Sample`.
- Sampling.Sample: it takes `alphas` and `alphas_prev` as already-gathered real sequences. It requires them to have one entry per timestep and every alpha to be positive. `Schedule.GatheredAlphasDenoise` shows the schedule of `benchmarks/stable_diffusion.py` meets this.

## Findings

| source | as written | input that shows it | evidently intended | confidence | as-written member | corrected member |
|---|---|---|---|---|---|---|
| benchmarks/stable_diffusion.py:248 | `range(1, 1000, 1000 // steps)` yields `998 // (1000 // steps) + 1` timesteps. | `--steps 6` (the default) gives 7 timesteps `[1, 167, ..., 997]`. `--steps 7` gives 8, and `--steps 1000` gives 999. | `--steps` is documented as "Number of steps in diffusion", so exactly `steps` timesteps should run. | medium; not executed | Schedule.TimestepsSixHasSeven | Schedule.IntendedTimesteps |

=== FILE: benchmark.dfy ===
/**
 * The multi-prompt benchmark harness: per-prompt seeds, the per-prompt
 * record `(elapsed, peak memory, iterations per second)`, the split into the
 * first (warm-up) run and the later runs, and the summary with average,
 * minimum and maximum over the later runs.
 *
 * Wall-clock times and memory counters come from the runtime; here they are
 * inputs (`Measurement`), one per prompt.
 */
module Benchmark {
  import opened Wrappers
  import Filename

  // ---------------------------------------------------------------------------
  // Per-prompt records
  // ---------------------------------------------------------------------------

  /** What the runtime reports for one prompt: elapsed seconds and the memory counter after each step. */
  datatype Measurement = Measurement(elapsed: real, memUsed: seq<nat>)

  /** One prompt's record: `(elapsed, peak_vram, ips)`. */
  datatype Run = Run(timeSeconds: real, peakBytes: nat, itersPerSecond: real)

  /** How the harness can stop: `len(timesteps) / 0.0`, or formatting a missing first run. */
  datatype HarnessError = ZeroElapsed | NoRuns

  /** Python's two-argument `max`. */
  function Max2(a: nat, b: nat): nat
  {
    if a >= b then a else b
  }

  /** `peak_vram = 0`, then `peak_vram = max(peak_vram, mem_used)` after every step. */
  function Peak(memUsed: seq<nat>): (peak: nat)
    ensures forall i :: 0 <= i < |memUsed| ==> memUsed[i] <= peak
    ensures peak == 0 || peak in memUsed
  {
    if |memUsed| == 0 then 0
    else Max2(Peak(memUsed[..|memUsed| - 1]), memUsed[|memUsed| - 1])
  }

  /** The record of one prompt, with `ips = len(timesteps) / elapsed`. */
  function MakeRun(m: Measurement, nSteps: nat): (r: Result<Run, HarnessError>)
    ensures r.Err? <==> m.elapsed == 0.0
    ensures r.Err? ==> r.error == ZeroElapsed
    ensures r.Ok? ==> r.value.timeSeconds == m.elapsed
    ensures r.Ok? ==> r.value.itersPerSecond * m.elapsed == nSteps as real
    ensures r.Ok? ==> r.value.peakBytes == Peak(m.memUsed)
  {
    if m.elapsed == 0.0 then Err(ZeroElapsed)
    else Ok(Run(m.elapsed, Peak(m.memUsed), nSteps as real / m.elapsed))
  }

  /** `Tensor.manual_seed(seed + idx)` when a seed is given, with `idx` counting from 1. */
  function SeedFor(seed: Option<int>, idx: nat): (s: Option<int>)
    ensures s.Some? <==> seed.Some?
    ensures s.Some? ==> s.value - seed.value == idx
  {
    match seed
    case None => None
    case Some(base) => Some(base + idx)
  }

  /** Two different prompts never share a seed. */
  lemma SeedsDistinct(seed: Option<int>, i: nat, j: nat)
    requires seed.Some? && i != j
    ensures SeedFor(seed, i) != SeedFor(seed, j)
  {
  }

  // ---------------------------------------------------------------------------
  // First run versus subsequent runs
  // ---------------------------------------------------------------------------

  /** `first_time, first_peak, first_ips` and the three `subsequent_*` lists, kept as one list of records. */
  datatype Stats = Stats(first: Option<Run>, subsequent: seq<Run>)

  /** The split the harness is meant to produce: record 1 apart, records 2..N in order. */
  function Partition(runs: seq<Run>): (st: Stats)
    ensures st.first.Some? <==> |runs| >= 1
    ensures |runs| >= 1 ==> st.first.value == runs[0] && st.subsequent == runs[1..]
    ensures |st.subsequent| == if |runs| == 0 then 0 else |runs| - 1
    ensures |runs| >= 1 ==> [st.first.value] + st.subsequent == runs
  {
    if |runs| == 0 then Stats(None, []) else Stats(Some(runs[0]), runs[1..])
  }

  /** The records of all prompts, when none of them fails. */
  function Runs(ms: seq<Measurement>, nSteps: nat): (runs: seq<Run>)
    requires forall i :: 0 <= i < |ms| ==> ms[i].elapsed != 0.0
    ensures |runs| == |ms|
    ensures forall i :: 0 <= i < |ms| ==> MakeRun(ms[i], nSteps) == Ok(runs[i])
  {
    seq(|ms|, i requires 0 <= i < |ms| => MakeRun(ms[i], nSteps).value)
  }

  /**
   * The per-prompt loop: seeds, records, file names and the split into the
   * first and the later runs. A zero elapsed time at prompt `k` aborts the
   * loop with an error after seed `k` is set and before file `k` is written,
   * so seeds `1..k` and files `1..k-1` are listed.
   */
  method RunPrompts(prompts: seq<string>, ms: seq<Measurement>, nSteps: nat, seed: Option<int>, isAlnum: char -> bool)
    returns (r: Result<Stats, HarnessError>, seeds: seq<Option<int>>, files: seq<string>)
    requires |ms| == |prompts|
    ensures r.Ok? <==> forall i :: 0 <= i < |ms| ==> ms[i].elapsed != 0.0
    ensures r.Err? ==> r.error == ZeroElapsed
    ensures r.Ok? ==> r.value == Partition(Runs(ms, nSteps))
    ensures r.Ok? ==> |files| == |prompts|
    ensures |files| <= |seeds| <= |prompts|
    ensures r.Err? ==> && |seeds| == |files| + 1
                       && ms[|files|].elapsed == 0.0
                       && forall i :: 0 <= i < |files| ==> ms[i].elapsed != 0.0
    ensures forall i :: 0 <= i < |seeds| ==> seeds[i] == SeedFor(seed, i + 1)
    ensures forall i :: 0 <= i < |files| ==> files[i] == Filename.OutputFileName(prompts[i], isAlnum)
  {
    var first: Option<Run> := None;
    var subsequent: seq<Run> := [];
    seeds := [];
    files := [];
    var idx := 1;
    while idx <= |prompts|
      invariant 1 <= idx <= |prompts| + 1
      invariant |seeds| == |files| == idx - 1
      invariant forall i :: 0 <= i < idx - 1 ==> ms[i].elapsed != 0.0
      invariant forall i :: 0 <= i < |seeds| ==> seeds[i] == SeedFor(seed, i + 1)
      invariant forall i :: 0 <= i < |files| ==> files[i] == Filename.OutputFileName(prompts[i], isAlnum)
      invariant first.Some? <==> idx > 1
      invariant idx > 1 ==> MakeRun(ms[0], nSteps) == Ok(first.value)
      invariant |subsequent| == if idx > 1 then idx - 2 else 0
      invariant forall i :: 0 <= i < |subsequent| ==> MakeRun(ms[i + 1], nSteps) == Ok(subsequent[i])
    {
      seeds := seeds + [SeedFor(seed, idx)];
      var run := MakeRun(ms[idx - 1], nSteps);
      if run.Err? {
        return Err(run.error), seeds, files;
      }
      if idx == 1 {
        first := Some(run.value);
      } else {
        subsequent := subsequent + [run.value];
      }
      files := files + [Filename.OutputFileName(prompts[idx - 1], isAlnum)];
      idx := idx + 1;
    }
    r := Ok(Stats(first, subsequent));
    var runs := Runs(ms, nSteps);
    assert r.value == Partition(runs) by {
      if |runs| > 0 {
        assert subsequent == runs[1..];
      }
    }
  }

  // ---------------------------------------------------------------------------
  // Summary statistics
  // ---------------------------------------------------------------------------

  function Sum(xs: seq<real>): real
  {
    if |xs| == 0 then 0.0 else Sum(xs[..|xs| - 1]) + xs[|xs| - 1]
  }

  /** `statistics.mean`. */
  function Mean(xs: seq<real>): real
    requires |xs| > 0
  {
    Sum(xs) / |xs| as real
  }

  /** Python's `min` over a non-empty list. */
  function Min(xs: seq<real>): (m: real)
    requires |xs| > 0
    ensures m in xs
    ensures forall i :: 0 <= i < |xs| ==> m <= xs[i]
  {
    if |xs| == 1 then xs[0]
    else
      var rest := Min(xs[1..]);
      if xs[0] <= rest then xs[0] else rest
  }

  /** Python's `max` over a non-empty list. */
  function Max(xs: seq<real>): (m: real)
    requires |xs| > 0
    ensures m in xs
    ensures forall i :: 0 <= i < |xs| ==> xs[i] <= m
  {
    if |xs| == 1 then xs[0]
    else
      var rest := Max(xs[1..]);
      if xs[0] >= rest then xs[0] else rest
  }

  /** A sum of `n` values each between `lo` and `hi` lies between `n * lo` and `n * hi`. */
  lemma {:induction false} SumBounds(xs: seq<real>, lo: real, hi: real)
    requires forall i :: 0 <= i < |xs| ==> lo <= xs[i] <= hi
    ensures |xs| as real * lo <= Sum(xs) <= |xs| as real * hi
  {
    if |xs| > 0 {
      var init := xs[..|xs| - 1];
      assert forall i :: 0 <= i < |init| ==> init[i] == xs[i];
      SumBounds(init, lo, hi);
      assert (|init| + 1) as real * lo == |init| as real * lo + lo;
      assert (|init| + 1) as real * hi == |init| as real * hi + hi;
    }
  }

  /** Dividing a bound on `n * q` by a positive `n`. */
  lemma DivideBound(total: real, n: real, lo: real, hi: real)
    requires n > 0.0 && n * lo <= total <= n * hi
    ensures lo <= total / n <= hi
  {
    var q := total / n;
    assert total == n * q;
    assert n * (q - lo) >= 0.0;
    assert n * (hi - q) >= 0.0;
  }

  /** The mean of values that all lie in `[lo, hi]` lies in `[lo, hi]`. */
  lemma MeanBounds(xs: seq<real>, lo: real, hi: real)
    requires |xs| > 0
    requires forall i :: 0 <= i < |xs| ==> lo <= xs[i] <= hi
    ensures lo <= Mean(xs) <= hi
  {
    SumBounds(xs, lo, hi);
    DivideBound(Sum(xs), |xs| as real, lo, hi);
  }

  /** The mean lies between the minimum and the maximum. */
  lemma MeanBetweenMinMax(xs: seq<real>)
    requires |xs| > 0
    ensures Min(xs) <= Mean(xs) <= Max(xs)
  {
    MeanBounds(xs, Min(xs), Max(xs));
  }

  /** One line of the JSON report: time, peak memory in GB, iterations per second. */
  datatype Report = Report(timeSeconds: real, peakVramGb: real, itersPerSecond: real)

  datatype SubsequentSummary = SubsequentSummary(average: Report, min: Report, max: Report, numRuns: nat)

  /** `benchmark_result`: the first run, and the later runs when there are any. */
  datatype Summary = Summary(firstRun: Report, subsequentRuns: Option<SubsequentSummary>)

  const BytesPerGb: real := 1000000000.0

  function Times(runs: seq<Run>): (xs: seq<real>)
    ensures |xs| == |runs| && forall i :: 0 <= i < |runs| ==> xs[i] == runs[i].timeSeconds
  {
    seq(|runs|, i requires 0 <= i < |runs| => runs[i].timeSeconds)
  }

  function Peaks(runs: seq<Run>): (xs: seq<real>)
    ensures |xs| == |runs| && forall i :: 0 <= i < |runs| ==> xs[i] == runs[i].peakBytes as real
  {
    seq(|runs|, i requires 0 <= i < |runs| => runs[i].peakBytes as real)
  }

  function Ips(runs: seq<Run>): (xs: seq<real>)
    ensures |xs| == |runs| && forall i :: 0 <= i < |runs| ==> xs[i] == runs[i].itersPerSecond
  {
    seq(|runs|, i requires 0 <= i < |runs| => runs[i].itersPerSecond)
  }

  /**
   * `lo`, `avg` and `hi` are `min(xs)`, `statistics.mean(xs)` and `max(xs)`:
   * both bounds are attained, they bound every value, and `avg` is the mean.
   */
  predicate MinMeanMax(lo: real, avg: real, hi: real, xs: seq<real>)
  {
    && |xs| > 0
    && lo in xs && hi in xs
    && (forall i :: 0 <= i < |xs| ==> lo <= xs[i] <= hi)
    && avg == Mean(xs)
  }

  /** Python's `min`, `statistics.mean` and `max` of a non-empty list meet `MinMeanMax`. */
  lemma DescribeList(xs: seq<real>)
    requires |xs| > 0
    ensures MinMeanMax(Min(xs), Mean(xs), Max(xs), xs)
    ensures Min(xs) <= Mean(xs) <= Max(xs)
  {
    MeanBetweenMinMax(xs);
  }

  /** Converting bytes to gigabytes and back loses nothing. */
  lemma GbRoundTrip(a: real)
    ensures a / BytesPerGb * BytesPerGb == a
  {
  }

  /** Converting bytes to gigabytes keeps the order. */
  lemma GbMonotone(a: real, b: real)
    requires a <= b
    ensures a / BytesPerGb <= b / BytesPerGb
  {
  }

  /** Field by field, `lo` is at most `hi`. */
  predicate ReportLe(lo: Report, hi: Report)
  {
    lo.timeSeconds <= hi.timeSeconds && lo.peakVramGb <= hi.peakVramGb && lo.itersPerSecond <= hi.itersPerSecond
  }

  /**
   * `s` summarises the later runs: it counts them, and its min, average and
   * max are `min`, `statistics.mean` and `max` of their times, their peaks
   * (in GB) and their rates, field by field ordered `min <= average <= max`.
   */
  predicate Describes(s: SubsequentSummary, runs: seq<Run>)
  {
    && s.numRuns == |runs|
    && ReportLe(s.min, s.average) && ReportLe(s.average, s.max)
    && MinMeanMax(s.min.timeSeconds, s.average.timeSeconds, s.max.timeSeconds, Times(runs))
    && MinMeanMax(s.min.peakVramGb * BytesPerGb, s.average.peakVramGb * BytesPerGb,
                  s.max.peakVramGb * BytesPerGb, Peaks(runs))
    && MinMeanMax(s.min.itersPerSecond, s.average.itersPerSecond, s.max.itersPerSecond, Ips(runs))
  }

  /** The `subsequent_runs` entry: average, min and max of time, peak memory and rate, and the count. */
  function SummarizeLater(runs: seq<Run>): (s: SubsequentSummary)
    requires |runs| > 0
    ensures s.numRuns == |runs|
  {
    var ts, ps, rates := Times(runs), Peaks(runs), Ips(runs);
    var average := Report(Mean(ts), Mean(ps) / BytesPerGb, Mean(rates));
    var lo := Report(Min(ts), Min(ps) / BytesPerGb, Min(rates));
    var hi := Report(Max(ts), Max(ps) / BytesPerGb, Max(rates));
    SubsequentSummary(average, lo, hi, |runs|)
  }

  /** The time fields of the later-run entry are `min`, `mean` and `max` of the times. */
  lemma LaterTimesDescribed(runs: seq<Run>)
    requires |runs| > 0
    ensures var s := SummarizeLater(runs);
            MinMeanMax(s.min.timeSeconds, s.average.timeSeconds, s.max.timeSeconds, Times(runs))
  {
    DescribeList(Times(runs));
  }

  /** The memory fields, scaled back to bytes, are `min`, `mean` and `max` of the peaks. */
  lemma LaterPeaksDescribed(runs: seq<Run>)
    requires |runs| > 0
    ensures var s := SummarizeLater(runs);
            MinMeanMax(s.min.peakVramGb * BytesPerGb, s.average.peakVramGb * BytesPerGb,
                       s.max.peakVramGb * BytesPerGb, Peaks(runs))
  {
    var s := SummarizeLater(runs);
    var ps := Peaks(runs);
    var lo, avg, hi := Min(ps), Mean(ps), Max(ps);
    assert s.min.peakVramGb * BytesPerGb == lo by {
      GbRoundTrip(lo);
    }
    assert s.average.peakVramGb * BytesPerGb == avg by {
      GbRoundTrip(avg);
    }
    assert s.max.peakVramGb * BytesPerGb == hi by {
      GbRoundTrip(hi);
    }
    assert MinMeanMax(lo, avg, hi, ps) by {
      DescribeList(ps);
    }
  }

  /** The rate fields are `min`, `mean` and `max` of the iteration rates. */
  lemma LaterRatesDescribed(runs: seq<Run>)
    requires |runs| > 0
    ensures var s := SummarizeLater(runs);
            MinMeanMax(s.min.itersPerSecond, s.average.itersPerSecond, s.max.itersPerSecond, Ips(runs))
  {
    DescribeList(Ips(runs));
  }

  /** The later-run entry describes the later runs. */
  lemma LaterSummaryDescribes(runs: seq<Run>)
    requires |runs| > 0
    ensures Describes(SummarizeLater(runs), runs)
  {
    var s := SummarizeLater(runs);
    LaterTimesDescribed(runs);
    LaterPeaksDescribed(runs);
    LaterRatesDescribed(runs);
    assert ReportLe(s.min, s.average) && ReportLe(s.average, s.max) by {
      var ts, ps, rates := Times(runs), Peaks(runs), Ips(runs);
      DescribeList(ts);
      DescribeList(ps);
      DescribeList(rates);
      GbMonotone(Min(ps), Mean(ps));
      GbMonotone(Mean(ps), Max(ps));
    }
  }

  /**
   * The summary. With no first run the driver formats `None` and fails; with
   * no later runs the `subsequent_runs` entry is absent.
   */
  function Summarize(st: Stats): (r: Result<Summary, HarnessError>)
    ensures r.Err? <==> st.first.None?
    ensures r.Err? ==> r.error == NoRuns
    ensures r.Ok? ==> r.value.firstRun.timeSeconds == st.first.value.timeSeconds
    ensures r.Ok? ==> r.value.firstRun.itersPerSecond == st.first.value.itersPerSecond
    ensures r.Ok? ==> r.value.firstRun.peakVramGb * BytesPerGb == st.first.value.peakBytes as real
    ensures r.Ok? ==> (r.value.subsequentRuns.Some? <==> |st.subsequent| > 0)
    ensures r.Ok? && r.value.subsequentRuns.Some? ==> Describes(r.value.subsequentRuns.value, st.subsequent)
  {
    match st.first
    case None => Err(NoRuns)
    case Some(f) =>
      var firstRun := Report(f.timeSeconds, f.peakBytes as real / BytesPerGb, f.itersPerSecond);
      if |st.subsequent| == 0 then Ok(Summary(firstRun, None))
      else
        LaterSummaryDescribes(st.subsequent);
        Ok(Summary(firstRun, Some(SummarizeLater(st.subsequent))))
  }

  /**
   * End to end over N records: the summary exists iff N >= 1, the later-run
   * entry exists iff N >= 2, and it counts N - 1 runs.
   */
  lemma SummaryOfRuns(runs: seq<Run>)
    ensures Summarize(Partition(runs)).Ok? <==> |runs| >= 1
    ensures |runs| >= 1 ==> Summarize(Partition(runs)).value.firstRun.timeSeconds == runs[0].timeSeconds
    ensures |runs| >= 1 ==> (Summarize(Partition(runs)).value.subsequentRuns.Some? <==> |runs| >= 2)
    ensures |runs| >= 2 ==> Summarize(Partition(runs)).value.subsequentRuns.value.numRuns == |runs| - 1
  {
  }

  /** Elapsed times 1.0, 2.0, 3.0: first 1.0; later runs average 2.5, min 2.0, max 3.0, two runs. */
  lemma SummaryExample()
    ensures var runs := [Run(1.0, 0, 6.0), Run(2.0, 0, 3.0), Run(3.0, 0, 2.0)];
            var s := Summarize(Partition(runs));
            && s.Ok?
            && s.value.firstRun.timeSeconds == 1.0
            && s.value.subsequentRuns.Some?
            && s.value.subsequentRuns.value.average.timeSeconds == 2.5
            && s.value.subsequentRuns.value.min.timeSeconds == 2.0
            && s.value.subsequentRuns.value.max.timeSeconds == 3.0
            && s.value.subsequentRuns.value.numRuns == 2
  {
    var runs := [Run(1.0, 0, 6.0), Run(2.0, 0, 3.0), Run(3.0, 0, 2.0)];
    var st := Partition(runs);
    var later := [Run(2.0, 0, 3.0), Run(3.0, 0, 2.0)];
    assert st == Stats(Some(runs[0]), later);
    var ts := Times(later);
    assert ts == [2.0, 3.0];
    assert ts[..1] == [2.0];
    assert [2.0][..0] == [];
    assert Sum([2.0]) == 2.0;
    assert Sum(ts) == 5.0;
    assert Mean(ts) == 2.5;
    assert Min(ts) == 2.0 && Max(ts) == 3.0 by {
      assert ts[1..] == [3.0];
    }
    var sub := SummarizeLater(later);
    assert sub.average.timeSeconds == 2.5 && sub.min.timeSeconds == 2.0 && sub.max.timeSeconds == 3.0;
    assert Summarize(st) == Ok(Summary(Report(1.0, 0.0, 6.0), Some(sub)));
  }
}

=== FILE: ddim.dfy ===
/**
 * One reverse-diffusion step: the classifier-free guidance combination of
 * the two denoiser outputs, and the deterministic DDIM update
 * (`sigma_t = 0`) that moves a latent from level `a_t` to level `a_prev`.
 *
 * Arithmetic is over the reals. The square root is a parameter of which the
 * model assumes only the facts in `SqrtLike`; float32 rounding is not modelled.
 * A latent is a flattened tensor `seq<real>`; every operation is elementwise
 * except the denoiser, which is an opaque parameter.
 */
module Ddim {

  /** The facts about `sqrt` the update relies on. */
  ghost predicate SqrtLike(sqrt: real -> real)
  {
    && sqrt(0.0) == 0.0
    && sqrt(1.0) == 1.0
    && (forall x :: x > 0.0 ==> sqrt(x) > 0.0)
  }

  // ---------------------------------------------------------------------------
  // Classifier-free guidance (one element)
  // ---------------------------------------------------------------------------

  /**
   * `e_u + w * (e_c - e_u)`: extrapolation from the unconditional estimate
   * toward the conditional one. It is the affine combination
   * `(1 - w) * e_u + w * e_c`, so scale 1 gives `e_c` and scale 0 gives `e_u`.
   */
  function Guide(eu: real, ec: real, w: real): (e: real)
    ensures e == (1.0 - w) * eu + w * ec
    ensures w == 1.0 ==> e == ec
    ensures w == 0.0 ==> e == eu
    ensures eu == ec ==> e == eu
  {
    eu + w * (ec - eu)
  }

  /** Guidance is affine in the scale: the estimate at `w` interpolates those at 0 and 1. */
  lemma GuideAffineInScale(eu: real, ec: real, w1: real, w2: real, t: real)
    ensures Guide(eu, ec, (1.0 - t) * w1 + t * w2) == (1.0 - t) * Guide(eu, ec, w1) + t * Guide(eu, ec, w2)
  {
  }

  // ---------------------------------------------------------------------------
  // DDIM update (one element)
  // ---------------------------------------------------------------------------

  /** The forward noising `sqrt(a) * x0 + sqrt(1 - a) * e` that the update inverts. */
  function Noise(sqrt: real -> real, x0: real, e: real, a: real): real
  {
    sqrt(a) * x0 + sqrt(1.0 - a) * e
  }

  /**
   * `pred_x0 = (x - sqrt(1 - a_t) * e_t) / sqrt(a_t)`: the clean latent that,
   * noised to level `a_t` with noise `e_t`, gives back `x`.
   */
  function PredX0(sqrt: real -> real, x: real, e: real, at: real): (x0: real)
    requires SqrtLike(sqrt) && at > 0.0
    ensures Noise(sqrt, x0, e, at) == x
    ensures at == 1.0 ==> x0 == x
  {
    assert sqrt(at) > 0.0;
    (x - sqrt(1.0 - at) * e) / sqrt(at)
  }

  /** Denoising a noised value with its own noise recovers the clean value. */
  lemma PredX0InvertsNoise(sqrt: real -> real, x0: real, e: real, a: real)
    requires SqrtLike(sqrt) && a > 0.0
    ensures PredX0(sqrt, Noise(sqrt, x0, e, a), e, a) == x0
  {
    assert sqrt(a) > 0.0;
    var x := Noise(sqrt, x0, e, a);
    assert x - sqrt(1.0 - a) * e == sqrt(a) * x0;
  }

  /** The pair `(x_prev, pred_x0)` returned by `get_x_prev_and_pred_x0`. */
  datatype Update = Update(xPrev: real, predX0: real)

  /**
   * One deterministic DDIM step: re-noise `pred_x0` to level `a_prev` along
   * the same noise direction, `x_prev = sqrt(a_prev) * pred_x0 + dir_xt` with
   * `dir_xt = sqrt(1 - a_prev - sigma_t^2) * e_t` and `sigma_t = 0`.
   */
  function Step(sqrt: real -> real, x: real, e: real, at: real, aprev: real): (u: Update)
    requires SqrtLike(sqrt) && at > 0.0
    ensures Noise(sqrt, u.predX0, e, at) == x
    ensures u.xPrev == Noise(sqrt, u.predX0, e, aprev)
    ensures aprev == 1.0 ==> u.xPrev == u.predX0
    ensures aprev == at ==> u.xPrev == x
    ensures e == 0.0 ==> u.xPrev == sqrt(aprev) / sqrt(at) * x
  {
    var sigma := 0.0;
    var predX0 := PredX0(sqrt, x, e, at);
    var dirXt := sqrt(1.0 - aprev - sigma * sigma) * e;
    assert sqrt(at) > 0.0;
    assert e == 0.0 ==> predX0 == x / sqrt(at);
    Update(sqrt(aprev) * predX0 + dirXt, predX0)
  }

  /**
   * When `e_t` is the true noise of `x` at level `a_t`, one step lands
   * exactly on the same clean value noised to level `a_prev`.
   */
  lemma StepFollowsNoisePath(sqrt: real -> real, x0: real, e: real, at: real, aprev: real)
    requires SqrtLike(sqrt) && at > 0.0
    ensures Step(sqrt, Noise(sqrt, x0, e, at), e, at, aprev).xPrev == Noise(sqrt, x0, e, aprev)
  {
    PredX0InvertsNoise(sqrt, x0, e, at);
  }

  // ---------------------------------------------------------------------------
  // Lifting to latents (elementwise over a flattened tensor)
  // ---------------------------------------------------------------------------

  type Latent = seq<real>

  /** Classifier-free guidance applied to every element. */
  function GuideLatent(eu: Latent, ec: Latent, w: real): (e: Latent)
    requires |eu| == |ec|
    ensures |e| == |eu|
    ensures forall i :: 0 <= i < |e| ==> e[i] == (1.0 - w) * eu[i] + w * ec[i]
    ensures w == 1.0 ==> e == ec
    ensures w == 0.0 ==> e == eu
  {
    seq(|eu|, i requires 0 <= i < |eu| => Guide(eu[i], ec[i], w))
  }

  /** The update pair for a whole latent. */
  datatype LatentUpdate = LatentUpdate(xPrev: Latent, predX0: Latent)

  /** `get_x_prev_and_pred_x0` on whole latents. */
  function StepLatent(sqrt: real -> real, x: Latent, e: Latent, at: real, aprev: real): (u: LatentUpdate)
    requires SqrtLike(sqrt) && at > 0.0 && |e| == |x|
    ensures |u.xPrev| == |x| && |u.predX0| == |x|
    ensures forall i :: 0 <= i < |x| ==> Noise(sqrt, u.predX0[i], e[i], at) == x[i]
    ensures forall i :: 0 <= i < |x| ==> u.xPrev[i] == Noise(sqrt, u.predX0[i], e[i], aprev)
    ensures aprev == 1.0 ==> u.xPrev == u.predX0
    ensures aprev == at ==> u.xPrev == x
  {
    var steps := seq(|x|, i requires 0 <= i < |x| => Step(sqrt, x[i], e[i], at, aprev));
    LatentUpdate(seq(|x|, i requires 0 <= i < |x| => steps[i].xPrev),
                 seq(|x|, i requires 0 <= i < |x| => steps[i].predX0))
  }

  // ---------------------------------------------------------------------------
  // The batched denoiser call and the full step
  // ---------------------------------------------------------------------------

  /** The external denoiser `UNet(latent, timestep, context)`, one sample at a time. */
  type Denoiser = (Latent, int, seq<real>) -> Latent

  /** The denoiser returns a noise estimate of the latent's own shape. */
  ghost predicate PreservesShape(unet: Denoiser)
  {
    forall x, t, ctx :: |unet(x, t, ctx)| == |x|
  }

  /**
   * `get_model_output`: the latent is expanded to a batch of two, paired with
   * `[unconditional; conditional]` contexts, denoised in one call, split into
   * rows 0 and 1 and combined by guidance.
   */
  function ModelOutput(unet: Denoiser, uncond: seq<real>, cond: seq<real>, latent: Latent, t: int, w: real): (e: Latent)
    requires PreservesShape(unet)
    ensures |e| == |latent|
    ensures forall i :: 0 <= i < |e| ==>
              e[i] == unet(latent, t, uncond)[i] + w * (unet(latent, t, cond)[i] - unet(latent, t, uncond)[i])
    ensures w == 1.0 ==> e == unet(latent, t, cond)
    ensures w == 0.0 ==> e == unet(latent, t, uncond)
    ensures unet(latent, t, uncond) == unet(latent, t, cond) ==> e == unet(latent, t, cond)
  {
    var batch := [latent, latent];
    var contexts := [uncond, cond];
    var out := seq(2, b requires 0 <= b < 2 => unet(batch[b], t, contexts[b]));
    GuideLatent(out[0], out[1], w)
  }

  /**
   * Exchanging the two contexts and replacing the scale `w` by `1 - w` gives
   * the same estimate: guidance is symmetric about the midpoint of the two rows.
   */
  lemma ModelOutputSwapContexts(unet: Denoiser, uncond: seq<real>, cond: seq<real>, latent: Latent, t: int, w: real)
    requires PreservesShape(unet)
    ensures ModelOutput(unet, cond, uncond, latent, t, 1.0 - w) == ModelOutput(unet, uncond, cond, latent, t, w)
  {
    var a := ModelOutput(unet, cond, uncond, latent, t, 1.0 - w);
    var b := ModelOutput(unet, uncond, cond, latent, t, w);
    forall i | 0 <= i < |latent|
      ensures a[i] == b[i]
    {
      var eu, ec := unet(latent, t, uncond)[i], unet(latent, t, cond)[i];
      assert a[i] == ec + (1.0 - w) * (eu - ec);
      assert b[i] == eu + w * (ec - eu);
    }
  }

  /** The parts of the pipeline that stay fixed across the steps of one prompt. */
  datatype Pipeline = Pipeline(unet: Denoiser, sqrt: real -> real, uncond: seq<real>, cond: seq<real>, guidance: real)

  ghost predicate ValidPipeline(p: Pipeline)
  {
    PreservesShape(p.unet) && SqrtLike(p.sqrt)
  }

  /**
   * `StableDiffusion.__call__`: guided noise estimate, then the DDIM update;
   * only `x_prev` is returned. With `a_prev = 1` the step returns `pred_x0`.
   */
  function DiffusionStep(p: Pipeline, latent: Latent, t: int, at: real, aprev: real): (x: Latent)
    requires ValidPipeline(p) && at > 0.0
    ensures |x| == |latent|
    ensures var e := ModelOutput(p.unet, p.uncond, p.cond, latent, t, p.guidance);
            forall i :: 0 <= i < |x| ==> x[i] == Noise(p.sqrt, PredX0(p.sqrt, latent[i], e[i], at), e[i], aprev)
    ensures aprev == 1.0 ==> x == StepLatent(p.sqrt, latent, ModelOutput(p.unet, p.uncond, p.cond, latent, t, p.guidance), at, aprev).predX0
  {
    var e := ModelOutput(p.unet, p.uncond, p.cond, latent, t, p.guidance);
    StepLatent(p.sqrt, latent, e, at, aprev).xPrev
  }

  /**
   * When the guided estimate is the true noise of the latent at level `a_t`,
   * the step lands on the same clean latent noised to level `a_prev`.
   */
  lemma DiffusionStepFollowsNoisePath(p: Pipeline, x0: Latent, latent: Latent, t: int, at: real, aprev: real)
    requires ValidPipeline(p) && at > 0.0 && |x0| == |latent|
    requires var e := ModelOutput(p.unet, p.uncond, p.cond, latent, t, p.guidance);
             forall i :: 0 <= i < |latent| ==> latent[i] == Noise(p.sqrt, x0[i], e[i], at)
    ensures var e := ModelOutput(p.unet, p.uncond, p.cond, latent, t, p.guidance);
            var x := DiffusionStep(p, latent, t, at, aprev);
            forall i :: 0 <= i < |x| ==> x[i] == Noise(p.sqrt, x0[i], e[i], aprev)
  {
    var e := ModelOutput(p.unet, p.uncond, p.cond, latent, t, p.guidance);
    forall i | 0 <= i < |latent|
      ensures PredX0(p.sqrt, latent[i], e[i], at) == x0[i]
    {
      PredX0InvertsNoise(p.sqrt, x0[i], e[i], at);
    }
  }
}

=== FILE: filename.dfy ===
/**
 * The output file name built from a prompt:
 * `"".join(c if c.isalnum() else "_" for c in prompt)[:50]` followed by `.png`.
 *
 * Python's `str.isalnum` is Unicode-aware, so the character class is a
 * parameter `isAlnum`; `AsciiAlnum` is its restriction to ASCII.
 */
module Filename {

  /** Longest file stem kept (`[:50]`). */
  const MaxStemLength: nat := 50

  /** The character that stands in for every non-alphanumeric character. */
  const Filler: char := '_'

  /** Letters and digits of the ASCII range. */
  predicate AsciiAlnum(c: char)
  {
    ('a' <= c <= 'z') || ('A' <= c <= 'Z') || ('0' <= c <= '9')
  }

  /** The character-by-character replacement, before truncation. */
  function Replace(prompt: string, isAlnum: char -> bool): (r: string)
    ensures |r| == |prompt|
    ensures forall i :: 0 <= i < |r| ==> r[i] == (if isAlnum(prompt[i]) then prompt[i] else Filler)
  {
    if |prompt| == 0 then []
    else [if isAlnum(prompt[0]) then prompt[0] else Filler] + Replace(prompt[1..], isAlnum)
  }

  /** Python's `s[:n]`: the first `n` characters, or all of them when fewer. */
  function Take<T>(s: seq<T>, n: nat): (r: seq<T>)
    ensures |r| == if |s| <= n then |s| else n
    ensures r <= s
  {
    if |s| <= n then s else s[..n]
  }

  /** The sanitised file stem of a prompt. */
  function Sanitize(prompt: string, isAlnum: char -> bool): (stem: string)
    ensures |stem| == if |prompt| <= MaxStemLength then |prompt| else MaxStemLength
    ensures forall i :: 0 <= i < |stem| ==> stem[i] == (if isAlnum(prompt[i]) then prompt[i] else Filler)
    ensures forall i :: 0 <= i < |stem| ==> isAlnum(stem[i]) || stem[i] == Filler
  {
    Take(Replace(prompt, isAlnum), MaxStemLength)
  }

  /** `f"{safe}.png"`. */
  function OutputFileName(prompt: string, isAlnum: char -> bool): (name: string)
    ensures 4 <= |name| <= MaxStemLength + 4
    ensures name[..|name| - 4] == Sanitize(prompt, isAlnum)
    ensures name[|name| - 4..] == ".png"
    ensures forall i :: 0 <= i < |name| - 4 ==> isAlnum(name[i]) || name[i] == Filler
  {
    Sanitize(prompt, isAlnum) + ".png"
  }

  /** Sanitising an already sanitised stem changes nothing. */
  lemma SanitizeIdempotent(prompt: string, isAlnum: char -> bool)
    ensures Sanitize(Sanitize(prompt, isAlnum), isAlnum) == Sanitize(prompt, isAlnum)
  {
    var once := Sanitize(prompt, isAlnum);
    var twice := Sanitize(once, isAlnum);
    assert |twice| == |once|;
    forall i | 0 <= i < |once|
      ensures twice[i] == once[i]
    {
    }
  }

  /** The stem depends only on the first 50 characters of the prompt. */
  lemma SanitizeDependsOnPrefix(p: string, q: string, isAlnum: char -> bool)
    requires |p| >= MaxStemLength && |q| >= MaxStemLength
    requires p[..MaxStemLength] == q[..MaxStemLength]
    ensures Sanitize(p, isAlnum) == Sanitize(q, isAlnum)
  {
    var sp := Sanitize(p, isAlnum);
    var sq := Sanitize(q, isAlnum);
    forall i | 0 <= i < MaxStemLength
      ensures sp[i] == sq[i]
    {
      assert p[i] == p[..MaxStemLength][i];
      assert q[i] == q[..MaxStemLength][i];
    }
  }

  /** Distinct prompts can share one file, so a later image overwrites an earlier one. */
  lemma DistinctPromptsCollide()
    ensures "a b" != "a-b"
    ensures OutputFileName("a b", AsciiAlnum) == OutputFileName("a-b", AsciiAlnum) == "a_b.png"
  {
    var s1 := Sanitize("a b", AsciiAlnum);
    var s2 := Sanitize("a-b", AsciiAlnum);
    assert s1[0] == 'a' && s1[1] == '_' && s1[2] == 'b';
    assert s2[0] == 'a' && s2[1] == '_' && s2[2] == 'b';
    assert s1 == s2 == "a_b";
  }
}

=== FILE: sampling.dfy ===
/**
 * The sampling loop driver: `for step_idx, tval in list(enumerate(timesteps))[::-1]`,
 * feeding each step's output latent into the next step.
 */
module Sampling {
  import opened Ddim
  import opened Seqs

  /** One iteration of the loop: the position in `timesteps` and the timestep value. */
  datatype Visit = Visit(stepIdx: nat, tval: int)

  /** `list(enumerate(ts, start))`. */
  function Enumerate(ts: seq<int>, start: nat): (v: seq<Visit>)
    ensures |v| == |ts|
    ensures forall k :: 0 <= k < |ts| ==> v[k] == Visit(start + k, ts[k])
  {
    if |ts| == 0 then [] else [Visit(start, ts[0])] + Enumerate(ts[1..], start + 1)
  }

  /** The order in which the loop visits the timesteps. */
  function Visits(ts: seq<int>): seq<Visit>
  {
    Reverse(Enumerate(ts, 0))
  }

  /**
   * The loop visits every index of `timesteps` exactly once, in strictly
   * descending order, pairing index `i` with `timesteps[i]`.
   */
  lemma VisitsOrder(ts: seq<int>)
    ensures |Visits(ts)| == |ts|
    ensures forall k :: 0 <= k < |ts| ==> Visits(ts)[k] == Visit(|ts| - 1 - k, ts[|ts| - 1 - k])
    ensures forall k, l :: 0 <= k < l < |ts| ==> Visits(ts)[k].stepIdx > Visits(ts)[l].stepIdx
    ensures var visited := set k | 0 <= k < |ts| :: Visits(ts)[k].stepIdx;
            forall i: int :: i in visited <==> 0 <= i < |ts|
  {
    var v := Visits(ts);
    var visited := set k | 0 <= k < |ts| :: v[k].stepIdx;
    forall i | 0 <= i < |ts|
      ensures i in visited
    {
      assert v[|ts| - 1 - i].stepIdx == i;
    }
  }

  /** The per-step inputs line up: one alpha and one previous alpha per timestep, all positive. */
  ghost predicate Aligned(ts: seq<int>, alphas: seq<real>, alphasPrev: seq<real>)
  {
    && |alphas| == |ts|
    && |alphasPrev| == |ts|
    && forall i :: 0 <= i < |alphas| ==> alphas[i] > 0.0
  }

  /**
   * The latent after the steps at indices `n - 1` down to `lo` have run,
   * starting from `x0`: the step at `lo` consumes the output of all the
   * higher indices.
   */
  function Walk(p: Pipeline, ts: seq<int>, alphas: seq<real>, alphasPrev: seq<real>, x0: Latent, lo: nat): (x: Latent)
    requires ValidPipeline(p) && Aligned(ts, alphas, alphasPrev) && lo <= |ts|
    ensures |x| == |x0|
    decreases |ts| - lo
  {
    if lo == |ts| then x0
    else DiffusionStep(p, Walk(p, ts, alphas, alphasPrev, x0, lo + 1), ts[lo], alphas[lo], alphasPrev[lo])
  }

  /**
   * The loop itself. It returns the final latent and the `(step_idx, tval)`
   * pairs in the order the loop saw them.
   */
  method Sample(p: Pipeline, ts: seq<int>, alphas: seq<real>, alphasPrev: seq<real>, x0: Latent)
    returns (x: Latent, trace: seq<Visit>)
    requires ValidPipeline(p) && Aligned(ts, alphas, alphasPrev)
    ensures x == Walk(p, ts, alphas, alphasPrev, x0, 0)
    ensures |trace| == |ts|
    ensures forall k :: 0 <= k < |ts| ==> trace[k] == Visit(|ts| - 1 - k, ts[|ts| - 1 - k])
  {
    var order := Visits(ts);
    VisitsOrder(ts);
    x := x0;
    trace := [];
    var j := 0;
    while j < |order|
      invariant 0 <= j <= |order|
      invariant x == Walk(p, ts, alphas, alphasPrev, x0, |ts| - j)
      invariant trace == order[..j]
    {
      var stepIdx := order[j].stepIdx;
      var tval := order[j].tval;
      x := DiffusionStep(p, x, tval, alphas[stepIdx], alphasPrev[stepIdx]);
      trace := trace + [order[j]];
      j := j + 1;
    }
  }

  /**
   * The last step the loop takes is index 0, where `alphas_prev[0] = 1`, so
   * the final latent is the predicted clean latent `pred_x0` of that step.
   */
  lemma FinalStepIsPredX0(p: Pipeline, ts: seq<int>, alphas: seq<real>, alphasPrev: seq<real>, x0: Latent)
    requires ValidPipeline(p) && Aligned(ts, alphas, alphasPrev)
    requires |ts| >= 1 && alphasPrev[0] == 1.0
    ensures var before := Walk(p, ts, alphas, alphasPrev, x0, 1);
            var e := ModelOutput(p.unet, p.uncond, p.cond, before, ts[0], p.guidance);
            Walk(p, ts, alphas, alphasPrev, x0, 0) == StepLatent(p.sqrt, before, e, alphas[0], 1.0).predX0
  {
  }
}

=== FILE: schedule.dfy ===
/**
 * The timestep subsequence the sampler walks, and the per-step cumulative
 * alphas gathered from the 1000-entry noise schedule.
 *
 * The driver builds `timesteps = list(range(1, 1000, 1000 // steps))`, gathers
 * `alphas = alphas_cumprod[timesteps]` and shifts them right by one, putting
 * 1.0 in front, to obtain `alphas_prev`.
 */
module Schedule {
  import opened Wrappers

  /** Length of the training noise schedule (`n_training_steps`). */
  const TrainingSteps: int := 1000

  /** Python's `a // b`: the quotient rounded toward negative infinity. */
  function FloorDiv(a: int, b: int): (q: int)
    requires b != 0
    ensures b > 0 ==> b * q <= a < b * q + b
    ensures b < 0 ==> b * q + b < a <= b * q
  {
    if b > 0 then a / b else (-a) / (-b)
  }

  /** Python's `range(start, stop, step)` as a list; `RangeSpec` states its contents. */
  function Range(start: int, stop: int, step: int): seq<int>
    requires step != 0
    decreases if step > 0 then stop - start else start - stop
  {
    if (step > 0 && start < stop) || (step < 0 && start > stop) then
      [start] + Range(start + step, stop, step)
    else
      []
  }

  /** `(k + 1) * s` unfolds to `k * s + s`. */
  lemma MulSucc(k: int, s: int)
    ensures (k + 1) * s == k * s + s
  {
  }

  /** Element `k` of `range(start, stop, step)` is `start + k * step`. */
  lemma {:induction false} RangeElements(start: int, stop: int, step: int)
    requires step != 0
    ensures forall k :: 0 <= k < |Range(start, stop, step)| ==> Range(start, stop, step)[k] == start + k * step
    decreases if step > 0 then stop - start else start - stop
  {
    var r := Range(start, stop, step);
    if (step > 0 && start < stop) || (step < 0 && start > stop) {
      var rest := Range(start + step, stop, step);
      RangeElements(start + step, stop, step);
      assert r == [start] + rest;
      forall k | 1 <= k < |r|
        ensures r[k] == start + k * step
      {
        assert r[k] == rest[k - 1] == start + step + (k - 1) * step;
        MulSucc(k - 1, step);
      }
    }
  }

  /**
   * `range(start, stop, step)` stops at the first term that reaches `stop`:
   * the term after the last one is at or beyond `stop`.
   */
  lemma {:induction false} RangeStops(start: int, stop: int, step: int)
    requires step != 0
    ensures step > 0 ==> start + |Range(start, stop, step)| * step >= stop
    ensures step < 0 ==> start + |Range(start, stop, step)| * step <= stop
    decreases if step > 0 then stop - start else start - stop
  {
    if (step > 0 && start < stop) || (step < 0 && start > stop) {
      var rest := Range(start + step, stop, step);
      RangeStops(start + step, stop, step);
      assert |Range(start, stop, step)| == |rest| + 1;
      MulSucc(|rest|, step);
    }
  }

  /**
   * `range(start, stop, step)` holds exactly the terms `start + k * step`
   * that lie strictly before `stop` in the direction of `step`.
   */
  lemma RangeSpec(start: int, stop: int, step: int)
    requires step != 0
    ensures var r := Range(start, stop, step);
            && (forall k :: 0 <= k < |r| ==> r[k] == start + k * step)
            && (step > 0 ==> (forall k :: 0 <= k < |r| ==> r[k] < stop) && start + |r| * step >= stop)
            && (step < 0 ==> (forall k :: 0 <= k < |r| ==> r[k] > stop) && start + |r| * step <= stop)
  {
    RangeElements(start, stop, step);
    RangeStops(start, stop, step);
    RangeBelowStop(start, stop, step);
  }

  /** Every term of `range(start, stop, step)` lies strictly before `stop`. */
  lemma {:induction false} RangeBelowStop(start: int, stop: int, step: int)
    requires step != 0
    ensures step > 0 ==> forall k :: 0 <= k < |Range(start, stop, step)| ==> Range(start, stop, step)[k] < stop
    ensures step < 0 ==> forall k :: 0 <= k < |Range(start, stop, step)| ==> Range(start, stop, step)[k] > stop
    decreases if step > 0 then stop - start else start - stop
  {
    if (step > 0 && start < stop) || (step < 0 && start > stop) {
      var rest := Range(start + step, stop, step);
      RangeBelowStop(start + step, stop, step);
      assert Range(start, stop, step) == [start] + rest;
    }
  }

  /** How building the schedule can fail: `1000 // 0`, or `range` with a zero step. */
  datatype ScheduleError = ZeroDivision | ZeroStride

  /** The stride `1000 // steps` between consecutive timesteps. */
  function Stride(steps: int): int
    requires steps != 0
  {
    FloorDiv(TrainingSteps, steps)
  }

  /**
   * `list(range(1, 1000, 1000 // steps))`, as the driver writes it.
   * A negative `steps` gives a negative stride and hence an empty list.
   */
  function Timesteps(steps: int): (r: Result<seq<int>, ScheduleError>)
    ensures r == Err(ZeroDivision) <==> steps == 0
    ensures r == Err(ZeroStride) <==> steps > TrainingSteps
    ensures steps < 0 ==> r == Ok([])
    ensures 1 <= steps <= TrainingSteps ==> r.Ok? && |r.value| >= 1 && r.value[0] == 1
  {
    if steps == 0 then Err(ZeroDivision)
    else
      var stride := Stride(steps);
      if stride == 0 then Err(ZeroStride)
      else Ok(Range(1, TrainingSteps, stride))
  }

  /** The shape of a well-formed timestep list: starts at 1, fixed gap, below 1000. */
  ghost predicate Strided(ts: seq<int>, stride: int)
  {
    && |ts| >= 1
    && ts[0] == 1
    && (forall k :: 0 <= k < |ts| - 1 ==> ts[k + 1] - ts[k] == stride)
    && (forall k :: 0 <= k < |ts| ==> 1 <= ts[k] < TrainingSteps)
    && ts[|ts| - 1] + stride >= TrainingSteps
  }

  /** Multiplying by a positive factor is strictly monotone. */
  lemma MulStrictMono(a: int, b: int, s: int)
    requires s > 0 && a * s < b * s
    ensures a < b
  {
  }

  /** A positive factor preserves strict order. */
  lemma MulLess(i: int, j: int, s: int)
    requires i < j && s > 0
    ensures i * s < j * s
  {
    assert j * s - i * s == (j - i) * s;
  }

  /** If `n` is the least count with `(n - 1) * s <= m < n * s`, then `n - 1 == m / s`. */
  lemma CountIsQuotient(n: int, m: nat, s: int)
    requires s > 0 && n >= 1
    requires (n - 1) * s <= m < n * s
    ensures n - 1 == m / s
  {
    var q := m / s;
    assert q * s <= m < q * s + s;
    assert q * s + s == (q + 1) * s;
    MulStrictMono(q, n, s);
    MulStrictMono(n - 1, q + 1, s);
  }

  /** A multiple `a * s` that fits in `m` has `a` at most `m / s`. */
  lemma LeQuotient(a: int, m: nat, s: int)
    requires s > 0 && a * s <= m
    ensures a <= m / s
  {
    var q := m / s;
    assert m < q * s + s == (q + 1) * s;
    MulStrictMono(a, q + 1, s);
  }

  /**
   * For every admissible `steps` the list is strided by `1000 // steps`, and
   * its length is the number of `k` with `1 + k * stride < 1000`.
   */
  lemma TimestepsShape(steps: int)
    requires 1 <= steps <= TrainingSteps
    ensures Timesteps(steps).Ok?
    ensures Timesteps(steps).value == Range(1, TrainingSteps, Stride(steps))
    ensures Strided(Timesteps(steps).value, Stride(steps))
    ensures forall k :: 0 <= k < |Timesteps(steps).value| ==> Timesteps(steps).value[k] == 1 + k * Stride(steps)
    ensures |Timesteps(steps).value| == (TrainingSteps - 2) / Stride(steps) + 1
  {
    var s := Stride(steps);
    var ts := Timesteps(steps).value;
    assert ts == Range(1, TrainingSteps, s);
    RangeSpec(1, TrainingSteps, s);
    forall k | 0 <= k < |ts| - 1
      ensures ts[k + 1] - ts[k] == s
    {
      assert ts[k + 1] == 1 + (k + 1) * s;
      assert (k + 1) * s == k * s + s;
    }
    assert ts[|ts| - 1] == 1 + (|ts| - 1) * s;
    assert |ts| * s == (|ts| - 1) * s + s;
    forall k | 0 <= k < |ts|
      ensures 1 <= ts[k]
    {
      assert k * s >= 0;
    }
    CountIsQuotient(|ts|, TrainingSteps - 2, s);
  }

  /** Whenever `steps` is at most 999 the list has at least `steps` entries. */
  lemma TimestepsAtLeastSteps(steps: int)
    requires 1 <= steps < TrainingSteps
    ensures Timesteps(steps).Ok? && |Timesteps(steps).value| >= steps
  {
    TimestepsShape(steps);
    var s := Stride(steps);
    assert steps * s <= TrainingSteps < steps * s + steps;
    assert (steps - 1) * s == steps * s - s;
    if s == 1 {
      assert (steps - 1) * s == steps - 1;
    }
    LeQuotient(steps - 1, TrainingSteps - 2, s);
  }

  /** `steps = 7` has stride 142 and yields eight timesteps. */
  lemma TimestepsSevenHasEight()
    ensures Timesteps(7) == Ok([1, 143, 285, 427, 569, 711, 853, 995])
  {
    TimestepsShape(7);
    var ts := Timesteps(7).value;
    assert Stride(7) == 142;
    assert |ts| == 8;
    assert ts[0] == 1 && ts[1] == 143 && ts[2] == 285 && ts[3] == 427;
    assert ts[4] == 569 && ts[5] == 711 && ts[6] == 853 && ts[7] == 995;
    assert ts == [1, 143, 285, 427, 569, 711, 853, 995];
  }

  /** `steps = 1000` has stride 1 and yields only 999 timesteps. */
  lemma TimestepsThousandHas999()
    ensures Timesteps(1000).Ok? && |Timesteps(1000).value| == 999
  {
    TimestepsShape(1000);
    assert Stride(1000) == 1;
  }

  /**
   * The schedule as `benchmarks/stable_diffusion.py` writes it: `steps = 6` has stride 166 and yields SEVEN
   * timesteps, the last being 997, so seven denoising steps are run.
   */
  lemma TimestepsSixHasSeven()
    ensures Timesteps(6) == Ok([1, 167, 333, 499, 665, 831, 997])
  {
    TimestepsShape(6);
    var ts := Timesteps(6).value;
    assert Stride(6) == 166;
    assert |ts| == 7;
    assert ts[0] == 1 && ts[1] == 167 && ts[2] == 333 && ts[3] == 499;
    assert ts[4] == 665 && ts[5] == 831 && ts[6] == 997;
    assert ts == [1, 167, 333, 499, 665, 831, 997];
  }

  /**
   * The schedule with exactly `steps` entries for `1 <= steps <= 999`: the
   * first `steps` elements of the strided range.
   */
  function IntendedTimesteps(steps: int): (r: Result<seq<int>, ScheduleError>)
    ensures r.Err? <==> Timesteps(steps).Err?
    ensures steps < 0 ==> r == Ok([])
    ensures 1 <= steps < TrainingSteps ==> r.Ok? && |r.value| == steps
    ensures r.Ok? ==> r.value <= Timesteps(steps).value
  {
    var ts :- Timesteps(steps);
    if steps < 0 then Ok(ts)
    else
      assert 1 <= steps < TrainingSteps ==> |ts| >= steps by {
        if 1 <= steps < TrainingSteps {
          TimestepsAtLeastSteps(steps);
        }
      }
      Ok(if |ts| <= steps then ts else ts[..steps])
  }

  /** The corrected schedule for `steps = 6` is `[1, 167, 333, 499, 665, 831]`. */
  lemma IntendedTimestepsSix()
    ensures IntendedTimesteps(6) == Ok([1, 167, 333, 499, 665, 831])
  {
    TimestepsSixHasSeven();
    var ts := Timesteps(6).value;
    assert ts[..6] == [1, 167, 333, 499, 665, 831];
  }

  /** Every timestep is a valid index into the 1000-entry noise schedule. */
  lemma TimestepsIndexSchedule(steps: int, ts: seq<int>)
    requires Timesteps(steps) == Ok(ts)
    ensures forall k :: 0 <= k < |ts| ==> 0 <= ts[k] < TrainingSteps
  {
    if 1 <= steps <= TrainingSteps {
      TimestepsShape(steps);
    }
  }

  /** The timesteps strictly increase, so sampling in reverse visits the noisiest first. */
  lemma TimestepsIncreasing(steps: int, ts: seq<int>)
    requires Timesteps(steps) == Ok(ts)
    ensures forall i, j :: 0 <= i < j < |ts| ==> ts[i] < ts[j]
  {
    if 1 <= steps <= TrainingSteps {
      var s := Stride(steps);
      TimestepsShape(steps);
      forall i, j | 0 <= i < j < |ts|
        ensures ts[i] < ts[j]
      {
        MulLess(i, j, s);
      }
    }
  }

  /** `alphas_cumprod[Tensor(timesteps)]`: the schedule values at the chosen timesteps. */
  function Gather(schedule: seq<real>, ts: seq<int>): (alphas: seq<real>)
    requires forall k :: 0 <= k < |ts| ==> 0 <= ts[k] < |schedule|
    ensures |alphas| == |ts|
    ensures forall k :: 0 <= k < |ts| ==> alphas[k] == schedule[ts[k]]
  {
    seq(|ts|, k requires 0 <= k < |ts| => schedule[ts[k]])
  }

  /** Python's `s[:-1]`: every element but the last; empty for an empty list. */
  function DropLast<T>(s: seq<T>): seq<T>
  {
    if |s| == 0 then [] else s[..|s| - 1]
  }

  /**
   * `Tensor([1.0]).cat(alphas[:-1])`: the previous step's alpha, with 1.0
   * ("no noise") before the first timestep. An empty `alphas` still yields `[1.0]`.
   */
  function AlphasPrev(alphas: seq<real>): (prev: seq<real>)
    ensures |prev| == if |alphas| == 0 then 1 else |alphas|
    ensures prev[0] == 1.0
    ensures forall i :: 1 <= i < |prev| ==> prev[i] == alphas[i - 1]
  {
    [1.0] + DropLast(alphas)
  }

  /** Dropping the leading 1.0 and appending the last alpha recovers `alphas`. */
  lemma AlphasPrevShiftInverse(alphas: seq<real>)
    requires |alphas| >= 1
    ensures AlphasPrev(alphas)[1..] + [alphas[|alphas| - 1]] == alphas
  {
  }

  /** Noise-schedule invariants: values in (0, 1] and strictly decreasing. */
  ghost predicate ValidSchedule(schedule: seq<real>)
  {
    && (forall t :: 0 <= t < |schedule| ==> 0.0 < schedule[t] <= 1.0)
    && (forall t, u :: 0 <= t < u < |schedule| ==> schedule[t] > schedule[u])
  }

  /**
   * Over a valid schedule and increasing timesteps, every step moves to a
   * less noisy level: all alphas lie in (0, 1], `alphas_prev[i] >= alphas[i]`,
   * strictly for `i >= 1`.
   */
  lemma GatheredAlphasDenoise(schedule: seq<real>, ts: seq<int>)
    requires ValidSchedule(schedule)
    requires forall k :: 0 <= k < |ts| ==> 0 <= ts[k] < |schedule|
    requires forall i, j :: 0 <= i < j < |ts| ==> ts[i] < ts[j]
    requires |ts| >= 1
    ensures var alphas := Gather(schedule, ts);
            var prev := AlphasPrev(alphas);
            && |prev| == |alphas|
            && (forall i :: 0 <= i < |alphas| ==> 0.0 < alphas[i] <= 1.0 && 0.0 < prev[i] <= 1.0)
            && prev[0] >= alphas[0]
            && (forall i :: 1 <= i < |alphas| ==> prev[i] > alphas[i])
  {
    var alphas := Gather(schedule, ts);
    var prev := AlphasPrev(alphas);
    forall i | 1 <= i < |alphas|
      ensures prev[i] > alphas[i]
    {
      assert prev[i] == schedule[ts[i - 1]];
      assert ts[i - 1] < ts[i];
    }
  }
}

=== FILE: seqs.dfy ===
/** Sequence helpers shared by the other modules. */
module Seqs {

  /** Python's `s[::-1]`. */
  function Reverse<T>(s: seq<T>): (r: seq<T>)
    ensures |r| == |s|
    ensures forall i :: 0 <= i < |s| ==> r[i] == s[|s| - 1 - i]
  {
    seq(|s|, i requires 0 <= i < |s| => s[|s| - 1 - i])
  }
}

=== FILE: upsample.dfy ===
/**
 * The decoder's nearest-neighbour upsample on data, one channel at a time:
 * `x.reshape(bs, c, py, 1, px, 1).expand(bs, c, py, 2, px, 2).reshape(bs, c, py*2, px*2)`.
 *
 * A channel is a row-major grid `seq<seq<T>>`. The expand gives the 4-D
 * tensor `E[y][a][x][b] = g[y][x]` with `a, b` in `{0, 1}`; the final reshape
 * merges the axes `(py, 2)` into rows and `(px, 2)` into columns in row-major
 * order, which is a concatenation.
 */
module Upsample {
  import VaeShapes

  /** Every row of `g` has `cols` entries. */
  ghost predicate Rectangular<T>(g: seq<seq<T>>, cols: nat)
  {
    forall y :: 0 <= y < |g| ==> |g[y]| == cols
  }

  /** Row-major flattening of a sequence of sequences. */
  function Concat<T>(s: seq<seq<T>>): (r: seq<T>)
  {
    if |s| == 0 then [] else s[0] + Concat(s[1..])
  }

  /** Flattening `n` rows of width `k` gives `n * k` entries. */
  lemma {:induction false} ConcatLength<T>(s: seq<seq<T>>, k: nat)
    requires Rectangular(s, k)
    ensures |Concat(s)| == |s| * k
  {
    if |s| > 0 {
      ConcatLength(s[1..], k);
    }
  }

  /** Entry `c` of row `j` sits at position `j * k + c` of a flattened rectangle of width `k`. */
  lemma {:induction false} ConcatIndex<T>(s: seq<seq<T>>, k: nat, j: nat, c: nat)
    requires Rectangular(s, k) && j < |s| && c < k
    ensures |Concat(s)| == |s| * k
    ensures j * k + c < |Concat(s)|
    ensures Concat(s)[j * k + c] == s[j][c]
  {
    ConcatLength(s, k);
    if j > 0 {
      ConcatIndex(s[1..], k, j - 1, c);
      assert (j - 1) * k + c == j * k + c - k;
    }
  }

  /** `reshape(py, 1, px, 1).expand(py, 2, px, 2)`: every entry repeated along two new axes of size 2. */
  function Expand<T>(g: seq<seq<T>>, px: nat): (e: seq<seq<seq<seq<T>>>>)
    requires Rectangular(g, px)
    ensures |e| == |g|
    ensures forall y :: 0 <= y < |g| ==> |e[y]| == 2
    ensures forall y, a :: 0 <= y < |g| && 0 <= a < 2 ==> |e[y][a]| == px && Rectangular(e[y][a], 2)
    ensures forall y, a, x :: 0 <= y < |g| && 0 <= a < 2 && 0 <= x < px ==> |e[y][a][x]| == 2
    ensures forall y, a, x, b :: 0 <= y < |g| && 0 <= a < 2 && 0 <= x < px && 0 <= b < 2 ==> e[y][a][x][b] == g[y][x]
  {
    seq(|g|, y requires 0 <= y < |g| =>
      seq(2, a requires 0 <= a < 2 =>
        seq(px, x requires 0 <= x < px =>
          seq(2, b requires 0 <= b < 2 => g[y][x]))))
  }

  /** The output rows in order: row `2y + a` is the row-major flattening of `E[y][a]`. */
  function MergedRows<T>(e: seq<seq<seq<seq<T>>>>, px: nat): seq<seq<seq<T>>>
    requires forall y :: 0 <= y < |e| ==> |e[y]| == 2
  {
    seq(|e|, y requires 0 <= y < |e| => seq(2, a requires 0 <= a < 2 => Concat(e[y][a])))
  }

  /** The merged rows, flattened, are `2 py` rows of width `2 px`; row `r` is `E[r / 2][r % 2]` flattened. */
  lemma MergedRowsShape<T>(g: seq<seq<T>>, px: nat)
    requires Rectangular(g, px)
    ensures var m := MergedRows(Expand(g, px), px);
            && |Concat(m)| == 2 * |g|
            && forall r :: 0 <= r < 2 * |g| ==> Concat(m)[r] == m[r / 2][r % 2] && |Concat(m)[r]| == 2 * px
  {
    var e := Expand(g, px);
    var m := MergedRows(e, px);
    forall y, a | 0 <= y < |g| && 0 <= a < 2
      ensures |m[y][a]| == 2 * px
    {
      ConcatLength(e[y][a], 2);
    }
    assert Rectangular(m, 2);
    ConcatLength(m, 2);
    forall r | 0 <= r < 2 * |g|
      ensures Concat(m)[r] == m[r / 2][r % 2]
    {
      ConcatIndex(m, 2, r / 2, r % 2);
    }
  }

  /** `reshape(py*2, px*2)` of the expanded tensor: twice as many rows, each twice as wide. */
  function Upsample<T>(g: seq<seq<T>>, px: nat): (u: seq<seq<T>>)
    requires Rectangular(g, px)
    ensures |u| == 2 * |g|
    ensures Rectangular(u, 2 * px)
  {
    MergedRowsShape(g, px);
    Concat(MergedRows(Expand(g, px), px))
  }

  /**
   * The entry of the upsampled grid at `(r, c)` is the input entry at
   * `(r / 2, c / 2)`: each input entry fills a 2x2 block.
   */
  lemma UpsampleIndex<T>(g: seq<seq<T>>, px: nat)
    requires Rectangular(g, px)
    ensures forall r, c :: 0 <= r < 2 * |g| && 0 <= c < 2 * px ==> Upsample(g, px)[r][c] == g[r / 2][c / 2]
  {
    var e := Expand(g, px);
    var u := Upsample(g, px);
    MergedRowsShape(g, px);
    forall r, c | 0 <= r < 2 * |g| && 0 <= c < 2 * px
      ensures u[r][c] == g[r / 2][c / 2]
    {
      ConcatIndex(e[r / 2][r % 2], 2, c / 2, c % 2);
    }
  }

  /** Keep every second row and column, starting at 0. */
  function Decimate<T>(u: seq<seq<T>>, cols: nat): (d: seq<seq<T>>)
    requires Rectangular(u, cols)
    ensures |d| == (|u| + 1) / 2
    ensures Rectangular(d, (cols + 1) / 2)
    ensures forall i, j :: 0 <= i < |d| && 0 <= j < (cols + 1) / 2 ==> d[i][j] == u[2 * i][2 * j]
  {
    seq((|u| + 1) / 2, i requires 0 <= i < (|u| + 1) / 2 =>
      seq((cols + 1) / 2, j requires 0 <= j < (cols + 1) / 2 => u[2 * i][2 * j]))
  }

  /** Decimating the upsampled grid gives back the input grid: no information is lost. */
  lemma DecimateUpsample<T>(g: seq<seq<T>>, px: nat)
    requires Rectangular(g, px)
    ensures Decimate(Upsample(g, px), 2 * px) == g
  {
    var u := Upsample(g, px);
    UpsampleIndex(g, px);
    var d := Decimate(u, 2 * px);
    assert |d| == |g|;
    forall i | 0 <= i < |g|
      ensures d[i] == g[i]
    {
      assert |d[i]| == px;
      forall j | 0 <= j < px
        ensures d[i][j] == g[i][j]
      {
        assert d[i][j] == u[2 * i][2 * j];
      }
    }
  }

  /** A feature map of `s.c` channels, each `s.h` rows of `s.w` entries. */
  ghost predicate HasShape<T>(m: seq<seq<seq<T>>>, s: VaeShapes.Shape)
  {
    && |m| == s.c
    && forall ch :: 0 <= ch < |m| ==> |m[ch]| == s.h && Rectangular(m[ch], s.w)
  }

  /** The upsample of a whole feature map: every channel separately (`bs, c, py, px = x.shape`). */
  function UpsampleMap<T>(m: seq<seq<seq<T>>>, px: nat): (u: seq<seq<seq<T>>>)
    requires forall ch :: 0 <= ch < |m| ==> Rectangular(m[ch], px)
    ensures |u| == |m|
    ensures forall ch :: 0 <= ch < |m| ==> u[ch] == Upsample(m[ch], px)
  {
    seq(|m|, ch requires 0 <= ch < |m| => Upsample(m[ch], px))
  }

  /**
   * The data-level upsample of a feature map has the shape that
   * `VaeShapes.Upsample2x` assigns to it, and each channel's entry `(r, c)`
   * is that channel's input entry `(r / 2, c / 2)`.
   */
  lemma UpsampleMatchesShape<T>(m: seq<seq<seq<T>>>, s: VaeShapes.Shape)
    requires HasShape(m, s)
    ensures HasShape(UpsampleMap(m, s.w), VaeShapes.Upsample2x(s))
    ensures forall ch, r, c :: 0 <= ch < s.c && 0 <= r < 2 * s.h && 0 <= c < 2 * s.w ==>
              UpsampleMap(m, s.w)[ch][r][c] == m[ch][r / 2][c / 2]
  {
    forall ch | 0 <= ch < s.c
      ensures forall r, c :: 0 <= r < 2 * s.h && 0 <= c < 2 * s.w ==> Upsample(m[ch], s.w)[r][c] == m[ch][r / 2][c / 2]
    {
      UpsampleIndex(m[ch], s.w);
    }
  }
}

=== FILE: vae_shapes.dfy ===
/**
 * Shape calculus of the variational autoencoder: how `ResnetBlock`,
 * `AttnBlock`, `Mid`, `Encoder`, `Decoder` and `AutoencoderKL` change the
 * channel count and spatial size of a single-image feature map.
 *
 * The blocks are built from the same stage tables as `benchmarks/stable_diffusion.py`; applying a
 * block to a shape either yields the output shape or the shape error the
 * tensor library would raise. Convolutions follow the standard size rule
 * `out = (n + padding - kernel) / stride + 1` per spatial axis.
 */
module VaeShapes {
  import opened Wrappers
  import opened Seqs

  /** A feature map `(channels, height, width)`; the batch dimension is always 1. */
  datatype Shape = Shape(c: nat, h: nat, w: nat)

  datatype ShapeError =
    | ChannelMismatch(expected: nat, found: nat)
    | TooSmall(size: nat, kernel: nat)
    | AddMismatch(left: Shape, right: Shape)

  type Stride = s: nat | s > 0 witness 1

  /** A 2-D convolution with a square kernel; `pad` is the total padding along each axis. */
  datatype Conv2d = Conv2d(cin: nat, cout: nat, kernel: nat, stride: Stride, pad: nat)

  /** `Conv2d(cin, cout, 3, padding=1)`: one pixel of padding on each side. */
  function Conv3x3(cin: nat, cout: nat): Conv2d
  {
    Conv2d(cin, cout, 3, 1, 2)
  }

  /** `Conv2d(cin, cout, 1)`. */
  function Conv1x1(cin: nat, cout: nat): Conv2d
  {
    Conv2d(cin, cout, 1, 1, 0)
  }

  /** `Conv2d(c, c, 3, stride=2, padding=(0,1,0,1))`: one pixel of padding after each axis. */
  function DownsampleConv(c: nat): Conv2d
  {
    Conv2d(c, c, 3, 2, 1)
  }

  /** Output size along one axis, or `None` when the padded input is smaller than the kernel. */
  function ConvSize(conv: Conv2d, n: nat): Option<nat>
  {
    if n + conv.pad < conv.kernel then None
    else Some((n + conv.pad - conv.kernel) / conv.stride + 1)
  }

  /** A 3x3 convolution with padding 1 keeps every non-empty size. */
  lemma Conv3x3KeepsSize(cin: nat, cout: nat, n: nat)
    ensures ConvSize(Conv3x3(cin, cout), n) == if n >= 1 then Some(n) else None
  {
  }

  /** A 1x1 convolution keeps every non-empty size. */
  lemma Conv1x1KeepsSize(cin: nat, cout: nat, n: nat)
    ensures ConvSize(Conv1x1(cin, cout), n) == if n >= 1 then Some(n) else None
  {
  }

  /** The stride-2 downsample halves (rounding down) every size of at least 2. */
  lemma DownsampleHalves(c: nat, n: nat)
    ensures ConvSize(DownsampleConv(c), n) == if n >= 2 then Some(n / 2) else None
  {
    if n >= 2 {
      assert (n - 2) / 2 + 1 == n / 2;
    }
  }

  function ApplyConv(conv: Conv2d, s: Shape): Result<Shape, ShapeError>
  {
    if s.c != conv.cin then Err(ChannelMismatch(conv.cin, s.c))
    else
      match (ConvSize(conv, s.h), ConvSize(conv, s.w))
      case (Some(h), Some(w)) => Ok(Shape(conv.cout, h, w))
      case (None, _) => Err(TooSmall(s.h, conv.kernel))
      case (_, None) => Err(TooSmall(s.w, conv.kernel))
  }

  /** `GroupNorm(32, c)` followed by swish: the shape is unchanged when the channels agree. */
  function ApplyNorm(c: nat, s: Shape): Result<Shape, ShapeError>
  {
    if s.c != c then Err(ChannelMismatch(c, s.c)) else Ok(s)
  }

  /** Elementwise `+`: both operands must have the same shape. */
  function Add(a: Shape, b: Shape): Result<Shape, ShapeError>
  {
    if a == b then Ok(a) else Err(AddMismatch(a, b))
  }

  // ---------------------------------------------------------------------------
  // Blocks
  // ---------------------------------------------------------------------------

  /** The residual path of a `ResnetBlock`: identity, or a learned 1x1 projection. */
  datatype Shortcut = Identity | Projection(conv: Conv2d)

  datatype ResnetBlock = ResnetBlock(norm1: nat, conv1: Conv2d, norm2: nat, conv2: Conv2d, shortcut: Shortcut)

  /** `ResnetBlock(cin, cout)`: the shortcut is the identity exactly when the widths agree. */
  function NewResnetBlock(cin: nat, cout: nat): (b: ResnetBlock)
    ensures b.shortcut.Identity? <==> cin == cout
    ensures b.shortcut.Projection? ==> b.shortcut.conv == Conv1x1(cin, cout)
    ensures b.conv1.cin == cin && b.conv2.cout == cout
  {
    ResnetBlock(cin, Conv3x3(cin, cout), cout, Conv3x3(cout, cout),
                if cin != cout then Projection(Conv1x1(cin, cout)) else Identity)
  }

  function ApplyShortcut(sc: Shortcut, s: Shape): Result<Shape, ShapeError>
  {
    match sc
    case Identity => Ok(s)
    case Projection(conv) => ApplyConv(conv, s)
  }

  /** `conv2(norm2(conv1(norm1(x)))) + nin_shortcut(x)`. */
  function ApplyResnet(b: ResnetBlock, x: Shape): Result<Shape, ShapeError>
  {
    var h0 :- ApplyNorm(b.norm1, x);
    var h1 :- ApplyConv(b.conv1, h0);
    var h2 :- ApplyNorm(b.norm2, h1);
    var h3 :- ApplyConv(b.conv2, h2);
    var sc :- ApplyShortcut(b.shortcut, x);
    Add(sc, h3)
  }

  /** A `ResnetBlock(cin, cout)` maps `(cin, h, w)` to `(cout, h, w)`, and fails on any other width or an empty map. */
  lemma ResnetShape(cin: nat, cout: nat, x: Shape)
    ensures ApplyResnet(NewResnetBlock(cin, cout), x).Ok? <==> x.c == cin && x.h >= 1 && x.w >= 1
    ensures ApplyResnet(NewResnetBlock(cin, cout), x).Ok? ==> ApplyResnet(NewResnetBlock(cin, cout), x).value == Shape(cout, x.h, x.w)
  {
    Conv3x3KeepsSize(cin, cout, x.h);
    Conv3x3KeepsSize(cin, cout, x.w);
    Conv3x3KeepsSize(cout, cout, x.h);
    Conv3x3KeepsSize(cout, cout, x.w);
  }

  /** Self-attention over the `h * w` positions, with 1x1 projections for q, k, v and the output. */
  datatype AttnBlock = AttnBlock(norm: nat, q: Conv2d, k: Conv2d, v: Conv2d, projOut: Conv2d)

  function NewAttnBlock(c: nat): AttnBlock
  {
    AttnBlock(c, Conv1x1(c, c), Conv1x1(c, c), Conv1x1(c, c), Conv1x1(c, c))
  }

  /**
   * `x + proj_out(attention(q, k, v))`. Attention over `(h * w, c)` tokens
   * returns `(h * w, c)`, reshaped back to the shape of `q`.
   */
  function ApplyAttn(a: AttnBlock, x: Shape): Result<Shape, ShapeError>
  {
    var h :- ApplyNorm(a.norm, x);
    var q :- ApplyConv(a.q, h);
    var k :- ApplyConv(a.k, h);
    var v :- ApplyConv(a.v, h);
    var attended := q;
    var out :- ApplyConv(a.projOut, attended);
    Add(x, out)
  }

  /** `AttnBlock(c)` keeps the shape of a non-empty `c`-channel map and rejects everything else. */
  lemma AttnShape(c: nat, x: Shape)
    ensures ApplyAttn(NewAttnBlock(c), x).Ok? <==> x.c == c && x.h >= 1 && x.w >= 1
    ensures ApplyAttn(NewAttnBlock(c), x).Ok? ==> ApplyAttn(NewAttnBlock(c), x).value == x
  {
  }

  /** `Mid(c)`: ResnetBlock, AttnBlock, ResnetBlock, all at width `c`. */
  datatype Mid = Mid(block1: ResnetBlock, attn: AttnBlock, block2: ResnetBlock)

  function NewMid(c: nat): Mid
  {
    Mid(NewResnetBlock(c, c), NewAttnBlock(c), NewResnetBlock(c, c))
  }

  function ApplyMid(m: Mid, x: Shape): Result<Shape, ShapeError>
  {
    var a :- ApplyResnet(m.block1, x);
    var b :- ApplyAttn(m.attn, a);
    ApplyResnet(m.block2, b)
  }

  /** `Mid(c)` keeps the shape of a non-empty `c`-channel map and rejects everything else. */
  lemma MidShape(c: nat, x: Shape)
    ensures ApplyMid(NewMid(c), x).Ok? <==> x.c == c && x.h >= 1 && x.w >= 1
    ensures ApplyMid(NewMid(c), x).Ok? ==> ApplyMid(NewMid(c), x).value == x
  {
    ResnetShape(c, c, x);
    if x.c == c && x.h >= 1 && x.w >= 1 {
      AttnShape(c, x);
      ResnetShape(c, c, ApplyAttn(NewAttnBlock(c), x).value);
    }
  }

  // ---------------------------------------------------------------------------
  // Stages
  // ---------------------------------------------------------------------------

  /** One resolution stage: its resnet blocks and an optional resampling convolution. */
  datatype Stage = Stage(blocks: seq<ResnetBlock>, resample: Option<Conv2d>)

  function ApplyBlocks(blocks: seq<ResnetBlock>, x: Shape): Result<Shape, ShapeError>
  {
    if |blocks| == 0 then Ok(x)
    else
      var y :- ApplyResnet(blocks[0], x);
      ApplyBlocks(blocks[1..], y)
  }

  /** Blocks built for a width chain `ws[0] -> ws[1] -> ...`. */
  function ChainBlocks(ws: seq<nat>): (blocks: seq<ResnetBlock>)
    requires |ws| >= 1
    ensures |blocks| == |ws| - 1
  {
    seq(|ws| - 1, i requires 0 <= i < |ws| - 1 => NewResnetBlock(ws[i], ws[i + 1]))
  }

  /** Blocks chained by width take `(ws[0], h, w)` to `(last ws, h, w)`, and fail on any other width. */
  lemma {:induction false} ChainBlocksShape(ws: seq<nat>, x: Shape)
    requires |ws| >= 2
    ensures ApplyBlocks(ChainBlocks(ws), x).Ok? <==> x.c == ws[0] && x.h >= 1 && x.w >= 1
    ensures ApplyBlocks(ChainBlocks(ws), x).Ok? ==> ApplyBlocks(ChainBlocks(ws), x).value == Shape(ws[|ws| - 1], x.h, x.w)
  {
    var blocks := ChainBlocks(ws);
    assert blocks[0] == NewResnetBlock(ws[0], ws[1]);
    ResnetShape(ws[0], ws[1], x);
    if |ws| == 2 {
      assert blocks[1..] == [];
    } else {
      assert blocks[1..] == ChainBlocks(ws[1..]);
      var y := Shape(ws[1], x.h, x.w);
      ChainBlocksShape(ws[1..], y);
    }
  }

  /** Width entering a stage: the input width of its first block. */
  function StageIn(st: Stage): nat
    requires |st.blocks| >= 1
  {
    st.blocks[0].conv1.cin
  }

  /** Width leaving a stage: the output width of its last block. */
  function StageOut(st: Stage): nat
    requires |st.blocks| >= 1
  {
    st.blocks[|st.blocks| - 1].conv2.cout
  }

  /** Every stage has blocks, and each stage's input width is the previous stage's output width. */
  predicate StagesChain(stages: seq<Stage>)
  {
    && (forall i :: 0 <= i < |stages| ==> |stages[i].blocks| >= 1)
    && (forall i :: 1 <= i < |stages| ==> StageIn(stages[i]) == StageOut(stages[i - 1]))
  }

  // ---------------------------------------------------------------------------
  // Encoder
  // ---------------------------------------------------------------------------

  /** `(in, out)` widths of the encoder stages, in order. */
  const EncoderWidths: seq<(nat, nat)> := [(128, 128), (128, 256), (256, 512), (512, 512)]

  datatype Encoder = Encoder(convIn: Conv2d, down: seq<Stage>, mid: Mid, normOut: nat, convOut: Conv2d)

  /** Stage `i` of the encoder: two blocks `in -> out -> out`, then a downsample unless `i == 3`. */
  function EncoderStage(s: (nat, nat), i: nat): Stage
  {
    Stage([NewResnetBlock(s.0, s.1), NewResnetBlock(s.1, s.1)],
          if i != 3 then Some(DownsampleConv(s.1)) else None)
  }

  function NewEncoder(): Encoder
  {
    Encoder(Conv3x3(3, 128),
            seq(|EncoderWidths|, i requires 0 <= i < |EncoderWidths| => EncoderStage(EncoderWidths[i], i)),
            NewMid(512), 512, Conv3x3(512, 8))
  }

  function ApplyDownStage(st: Stage, x: Shape): Result<Shape, ShapeError>
  {
    var y :- ApplyBlocks(st.blocks, x);
    match st.resample
    case None => Ok(y)
    case Some(conv) => ApplyConv(conv, y)
  }

  /** `for l in self.down`: the stages in order. */
  function ApplyDownStages(stages: seq<Stage>, x: Shape): Result<Shape, ShapeError>
  {
    if |stages| == 0 then Ok(x)
    else
      var y :- ApplyDownStage(stages[0], x);
      ApplyDownStages(stages[1..], y)
  }

  function ApplyEncoder(e: Encoder, x: Shape): Result<Shape, ShapeError>
  {
    var h :- ApplyConv(e.convIn, x);
    var d :- ApplyDownStages(e.down, h);
    var m :- ApplyMid(e.mid, d);
    var n :- ApplyNorm(e.normOut, m);
    ApplyConv(e.convOut, n)
  }

  /** The encoder's stages chain by width, 128 -> 128 -> 256 -> 512 -> 512, from `conv_in` to `Mid(512)`. */
  lemma EncoderWiring()
    ensures var e := NewEncoder();
            && |e.down| == 4
            && StagesChain(e.down)
            && e.convIn.cout == StageIn(e.down[0]) == 128
            && StageOut(e.down[3]) == 512 == e.mid.block1.conv1.cin
            && (forall i :: 0 <= i < 3 ==> e.down[i].resample == Some(DownsampleConv(StageOut(e.down[i]))))
            && e.down[3].resample.None?
  {
  }

  /** A downsampling stage `a -> b`: `(a, h, w)` with `h, w >= 2` becomes `(b, h / 2, w / 2)`. */
  lemma DownStageShape(s: (nat, nat), i: nat, x: Shape)
    ensures var r := ApplyDownStage(EncoderStage(s, i), x);
            if i != 3 then
              && (r.Ok? <==> x.c == s.0 && x.h >= 2 && x.w >= 2)
              && (r.Ok? ==> r.value == Shape(s.1, x.h / 2, x.w / 2))
            else
              && (r.Ok? <==> x.c == s.0 && x.h >= 1 && x.w >= 1)
              && (r.Ok? ==> r.value == Shape(s.1, x.h, x.w))
  {
    var st := EncoderStage(s, i);
    assert st.blocks == ChainBlocks([s.0, s.1, s.1]);
    ChainBlocksShape([s.0, s.1, s.1], x);
    if ApplyBlocks(st.blocks, x).Ok? {
      DownsampleHalves(s.1, x.h);
      DownsampleHalves(s.1, x.w);
    }
  }

  /** Running a non-empty stage list is running its head, then the rest on the head's output. */
  lemma DownStagesUnfold(stages: seq<Stage>, x: Shape)
    requires |stages| >= 1
    ensures ApplyDownStage(stages[0], x).Err? ==> ApplyDownStages(stages, x).Err?
    ensures ApplyDownStage(stages[0], x).Ok? ==>
              ApplyDownStages(stages, x) == ApplyDownStages(stages[1..], ApplyDownStage(stages[0], x).value)
  {
  }

  /** The encoder's stages from index `k` on. */
  function EncoderTail(k: nat): seq<Stage>
    requires k <= 4
  {
    NewEncoder().down[k..]
  }

  /** The last encoder stage keeps the size of a non-empty `(512, h, w)` map. */
  lemma EncoderTail3Shape(x: Shape)
    ensures var r := ApplyDownStages(EncoderTail(3), x);
            && (r.Ok? <==> x.c == 512 && x.h >= 1 && x.w >= 1)
            && (r.Ok? ==> r.value == Shape(512, x.h, x.w))
  {
    var t := EncoderTail(3);
    assert t[0] == EncoderStage(EncoderWidths[3], 3) && t[1..] == [];
    DownStageShape(EncoderWidths[3], 3, x);
    DownStagesUnfold(t, x);
  }

  lemma EncoderTail2Shape(x: Shape)
    ensures var r := ApplyDownStages(EncoderTail(2), x);
            && (r.Ok? <==> x.c == 256 && x.h >= 2 && x.w >= 2)
            && (r.Ok? ==> r.value == Shape(512, x.h / 2, x.w / 2))
  {
    var t := EncoderTail(2);
    assert t[0] == EncoderStage(EncoderWidths[2], 2) && t[1..] == EncoderTail(3);
    DownStageShape(EncoderWidths[2], 2, x);
    DownStagesUnfold(t, x);
    EncoderTail3Shape(Shape(512, x.h / 2, x.w / 2));
  }

  lemma EncoderTail1Shape(x: Shape)
    ensures var r := ApplyDownStages(EncoderTail(1), x);
            && (r.Ok? <==> x.c == 128 && x.h >= 4 && x.w >= 4)
            && (r.Ok? ==> r.value == Shape(512, x.h / 4, x.w / 4))
  {
    var t := EncoderTail(1);
    assert t[0] == EncoderStage(EncoderWidths[1], 1) && t[1..] == EncoderTail(2);
    DownStageShape(EncoderWidths[1], 1, x);
    DownStagesUnfold(t, x);
    EncoderTail2Shape(Shape(256, x.h / 2, x.w / 2));
    assert x.h / 2 / 2 == x.h / 4 && x.w / 2 / 2 == x.w / 4;
  }

  /** The four encoder stages take `(128, h, w)` to `(512, h / 8, w / 8)` exactly when `h, w >= 8`. */
  lemma EncoderStagesShape(x: Shape)
    ensures var r := ApplyDownStages(NewEncoder().down, x);
            && (r.Ok? <==> x.c == 128 && x.h >= 8 && x.w >= 8)
            && (r.Ok? ==> r.value == Shape(512, x.h / 8, x.w / 8))
  {
    var t := EncoderTail(0);
    assert t == NewEncoder().down;
    assert t[0] == EncoderStage(EncoderWidths[0], 0) && t[1..] == EncoderTail(1);
    DownStageShape(EncoderWidths[0], 0, x);
    DownStagesUnfold(t, x);
    EncoderTail1Shape(Shape(128, x.h / 2, x.w / 2));
    assert x.h / 2 / 4 == x.h / 8 && x.w / 2 / 4 == x.w / 8;
  }

  /**
   * The encoder's end-to-end shape from the shape behaviour of its stage list
   * and its middle block, whatever their internals.
   */
  lemma EncoderCompose(e: Encoder, x: Shape)
    requires e.convIn == Conv3x3(3, 128) && e.normOut == 512 && e.convOut == Conv3x3(512, 8)
    requires forall y :: ApplyDownStages(e.down, y).Ok? <==> y.c == 128 && y.h >= 8 && y.w >= 8
    requires forall y :: ApplyDownStages(e.down, y).Ok? ==> ApplyDownStages(e.down, y).value == Shape(512, y.h / 8, y.w / 8)
    requires forall y :: ApplyMid(e.mid, y).Ok? <==> y.c == 512 && y.h >= 1 && y.w >= 1
    requires forall y :: ApplyMid(e.mid, y).Ok? ==> ApplyMid(e.mid, y).value == y
    ensures ApplyEncoder(e, x).Ok? <==> x.c == 3 && x.h >= 8 && x.w >= 8
    ensures ApplyEncoder(e, x).Ok? ==> ApplyEncoder(e, x).value == Shape(8, x.h / 8, x.w / 8)
  {
    Conv3x3KeepsSize(3, 128, x.h);
    Conv3x3KeepsSize(3, 128, x.w);
    if x.c == 3 && x.h >= 8 && x.w >= 8 {
      var d := Shape(512, x.h / 8, x.w / 8);
      Conv3x3KeepsSize(512, 8, d.h);
      Conv3x3KeepsSize(512, 8, d.w);
    }
  }

  /**
   * The encoder maps `(3, h, w)` to `(8, h / 8, w / 8)` exactly when
   * `h, w >= 8`; in particular `(3, 512, 512)` becomes `(8, 64, 64)`.
   */
  lemma EncoderShape(x: Shape)
    ensures ApplyEncoder(NewEncoder(), x).Ok? <==> x.c == 3 && x.h >= 8 && x.w >= 8
    ensures ApplyEncoder(NewEncoder(), x).Ok? ==> ApplyEncoder(NewEncoder(), x).value == Shape(8, x.h / 8, x.w / 8)
  {
    var e := NewEncoder();
    forall y
      ensures ApplyDownStages(e.down, y).Ok? <==> y.c == 128 && y.h >= 8 && y.w >= 8
      ensures ApplyDownStages(e.down, y).Ok? ==> ApplyDownStages(e.down, y).value == Shape(512, y.h / 8, y.w / 8)
    {
      EncoderStagesShape(y);
    }
    forall y
      ensures ApplyMid(e.mid, y).Ok? <==> y.c == 512 && y.h >= 1 && y.w >= 1
      ensures ApplyMid(e.mid, y).Ok? ==> ApplyMid(e.mid, y).value == y
    {
      MidShape(512, y);
    }
    EncoderCompose(e, x);
  }

  /** The concrete case `(3, 512, 512) -> (8, 64, 64)`. */
  lemma EncoderShape512()
    ensures ApplyEncoder(NewEncoder(), Shape(3, 512, 512)) == Ok(Shape(8, 64, 64))
  {
    EncoderShape(Shape(3, 512, 512));
  }

  // ---------------------------------------------------------------------------
  // Decoder
  // ---------------------------------------------------------------------------

  /** `(out, in)` widths of the decoder stages, in definition order (processed in reverse). */
  const DecoderWidths: seq<(nat, nat)> := [(128, 256), (256, 512), (512, 512), (512, 512)]

  datatype Decoder = Decoder(convIn: Conv2d, mid: Mid, up: seq<Stage>, normOut: nat, convOut: Conv2d)

  /** Stage `i` of the decoder: three blocks `in -> out -> out -> out`, then an upsample unless `i == 0`. */
  function DecoderStage(s: (nat, nat), i: nat): Stage
  {
    Stage([NewResnetBlock(s.1, s.0), NewResnetBlock(s.0, s.0), NewResnetBlock(s.0, s.0)],
          if i != 0 then Some(Conv3x3(s.0, s.0)) else None)
  }

  function NewDecoder(): Decoder
  {
    Decoder(Conv3x3(4, 512), NewMid(512),
            seq(|DecoderWidths|, i requires 0 <= i < |DecoderWidths| => DecoderStage(DecoderWidths[i], i)),
            128, Conv3x3(128, 3))
  }

  /** The replicate-and-reshape nearest-neighbour upsample: `(c, py, px)` becomes `(c, 2 py, 2 px)`. */
  function Upsample2x(x: Shape): Shape
  {
    Shape(x.c, 2 * x.h, 2 * x.w)
  }

  function ApplyUpStage(st: Stage, x: Shape): Result<Shape, ShapeError>
  {
    var y :- ApplyBlocks(st.blocks, x);
    match st.resample
    case None => Ok(y)
    case Some(conv) => ApplyConv(conv, Upsample2x(y))
  }

  /** `for l in self.up[::-1]`: stages `k - 1` down to `0`. */
  function ApplyUpStages(up: seq<Stage>, k: nat, x: Shape): Result<Shape, ShapeError>
    requires k <= |up|
  {
    if k == 0 then Ok(x)
    else
      var y :- ApplyUpStage(up[k - 1], x);
      ApplyUpStages(up, k - 1, y)
  }

  function ApplyDecoder(d: Decoder, x: Shape): Result<Shape, ShapeError>
  {
    var h :- ApplyConv(d.convIn, x);
    var m :- ApplyMid(d.mid, h);
    var u :- ApplyUpStages(d.up, |d.up|, m);
    var n :- ApplyNorm(d.normOut, u);
    ApplyConv(d.convOut, n)
  }

  /**
   * In processing order the decoder's stages chain by width,
   * 512 -> 512 -> 512 -> 256 -> 128, and every stage but the last processed
   * (`up[0]`) ends with an upsample.
   */
  lemma DecoderWiring()
    ensures var d := NewDecoder();
            var order := Reverse(d.up);
            && |order| == 4
            && StagesChain(order)
            && d.convIn.cout == d.mid.block1.conv1.cin == StageIn(order[0]) == 512
            && [StageIn(order[0]), StageOut(order[0]), StageOut(order[1]), StageOut(order[2]), StageOut(order[3])]
               == [512, 512, 512, 256, 128]
            && StageOut(order[3]) == d.normOut
            && (forall i :: 0 <= i < 3 ==> order[i].resample == Some(Conv3x3(StageOut(order[i]), StageOut(order[i]))))
            && order[3].resample.None?
  {
  }

  /** A decoder stage `in -> out`: `(in, h, w)` becomes `(out, 2h, 2w)`, or `(out, h, w)` for stage 0. */
  lemma UpStageShape(s: (nat, nat), i: nat, x: Shape)
    ensures var r := ApplyUpStage(DecoderStage(s, i), x);
            && (r.Ok? <==> x.c == s.1 && x.h >= 1 && x.w >= 1)
            && (r.Ok? ==> r.value == if i != 0 then Shape(s.0, 2 * x.h, 2 * x.w) else Shape(s.0, x.h, x.w))
  {
    var st := DecoderStage(s, i);
    assert st.blocks == ChainBlocks([s.1, s.0, s.0, s.0]);
    ChainBlocksShape([s.1, s.0, s.0, s.0], x);
    Conv3x3KeepsSize(s.0, s.0, 2 * x.h);
    Conv3x3KeepsSize(s.0, s.0, 2 * x.w);
  }

  /** Running stages `k - 1 .. 0` is running stage `k - 1`, then stages `k - 2 .. 0` on its output. */
  lemma UpStagesUnfold(up: seq<Stage>, k: nat, x: Shape)
    requires 1 <= k <= |up|
    ensures ApplyUpStage(up[k - 1], x).Err? ==> ApplyUpStages(up, k, x).Err?
    ensures ApplyUpStage(up[k - 1], x).Ok? ==>
              ApplyUpStages(up, k, x) == ApplyUpStages(up, k - 1, ApplyUpStage(up[k - 1], x).value)
  {
  }

  /** The last processed decoder stage, `up[0]`: 256 -> 128 with no upsample. */
  lemma DecoderStages1Shape(x: Shape)
    ensures var r := ApplyUpStages(NewDecoder().up, 1, x);
            && (r.Ok? <==> x.c == 256 && x.h >= 1 && x.w >= 1)
            && (r.Ok? ==> r.value == Shape(128, x.h, x.w))
  {
    var up := NewDecoder().up;
    assert up[0] == DecoderStage(DecoderWidths[0], 0);
    UpStageShape(DecoderWidths[0], 0, x);
    UpStagesUnfold(up, 1, x);
  }

  lemma DecoderStages2Shape(x: Shape)
    ensures var r := ApplyUpStages(NewDecoder().up, 2, x);
            && (r.Ok? <==> x.c == 512 && x.h >= 1 && x.w >= 1)
            && (r.Ok? ==> r.value == Shape(128, 2 * x.h, 2 * x.w))
  {
    var up := NewDecoder().up;
    assert up[1] == DecoderStage(DecoderWidths[1], 1);
    UpStageShape(DecoderWidths[1], 1, x);
    UpStagesUnfold(up, 2, x);
    DecoderStages1Shape(Shape(256, 2 * x.h, 2 * x.w));
  }

  lemma DecoderStages3Shape(x: Shape)
    ensures var r := ApplyUpStages(NewDecoder().up, 3, x);
            && (r.Ok? <==> x.c == 512 && x.h >= 1 && x.w >= 1)
            && (r.Ok? ==> r.value == Shape(128, 4 * x.h, 4 * x.w))
  {
    var up := NewDecoder().up;
    assert up[2] == DecoderStage(DecoderWidths[2], 2);
    UpStageShape(DecoderWidths[2], 2, x);
    UpStagesUnfold(up, 3, x);
    DecoderStages2Shape(Shape(512, 2 * x.h, 2 * x.w));
  }

  /** The four decoder stages take `(512, h, w)` to `(128, 8h, 8w)` exactly when `h, w >= 1`. */
  lemma DecoderStagesShape(x: Shape)
    ensures var r := ApplyUpStages(NewDecoder().up, 4, x);
            && (r.Ok? <==> x.c == 512 && x.h >= 1 && x.w >= 1)
            && (r.Ok? ==> r.value == Shape(128, 8 * x.h, 8 * x.w))
  {
    var up := NewDecoder().up;
    assert up[3] == DecoderStage(DecoderWidths[3], 3);
    UpStageShape(DecoderWidths[3], 3, x);
    UpStagesUnfold(up, 4, x);
    DecoderStages3Shape(Shape(512, 2 * x.h, 2 * x.w));
  }

  /** The decoder's end-to-end shape from the shape behaviour of its stages and middle block. */
  lemma DecoderCompose(d: Decoder, x: Shape)
    requires d.convIn == Conv3x3(4, 512) && d.normOut == 128 && d.convOut == Conv3x3(128, 3) && |d.up| == 4
    requires forall y :: ApplyUpStages(d.up, 4, y).Ok? <==> y.c == 512 && y.h >= 1 && y.w >= 1
    requires forall y :: ApplyUpStages(d.up, 4, y).Ok? ==> ApplyUpStages(d.up, 4, y).value == Shape(128, 8 * y.h, 8 * y.w)
    requires forall y :: ApplyMid(d.mid, y).Ok? <==> y.c == 512 && y.h >= 1 && y.w >= 1
    requires forall y :: ApplyMid(d.mid, y).Ok? ==> ApplyMid(d.mid, y).value == y
    ensures ApplyDecoder(d, x).Ok? <==> x.c == 4 && x.h >= 1 && x.w >= 1
    ensures ApplyDecoder(d, x).Ok? ==> ApplyDecoder(d, x).value == Shape(3, 8 * x.h, 8 * x.w)
  {
    Conv3x3KeepsSize(4, 512, x.h);
    Conv3x3KeepsSize(4, 512, x.w);
    Conv3x3KeepsSize(128, 3, 8 * x.h);
    Conv3x3KeepsSize(128, 3, 8 * x.w);
  }

  /**
   * The decoder maps `(4, h, w)` to `(3, 8h, 8w)` exactly when `h, w >= 1`;
   * in particular `(4, 64, 64)` becomes `(3, 512, 512)`.
   */
  lemma DecoderShape(x: Shape)
    ensures ApplyDecoder(NewDecoder(), x).Ok? <==> x.c == 4 && x.h >= 1 && x.w >= 1
    ensures ApplyDecoder(NewDecoder(), x).Ok? ==> ApplyDecoder(NewDecoder(), x).value == Shape(3, 8 * x.h, 8 * x.w)
  {
    var d := NewDecoder();
    forall y
      ensures ApplyUpStages(d.up, 4, y).Ok? <==> y.c == 512 && y.h >= 1 && y.w >= 1
      ensures ApplyUpStages(d.up, 4, y).Ok? ==> ApplyUpStages(d.up, 4, y).value == Shape(128, 8 * y.h, 8 * y.w)
    {
      DecoderStagesShape(y);
    }
    forall y
      ensures ApplyMid(d.mid, y).Ok? <==> y.c == 512 && y.h >= 1 && y.w >= 1
      ensures ApplyMid(d.mid, y).Ok? ==> ApplyMid(d.mid, y).value == y
    {
      MidShape(512, y);
    }
    DecoderCompose(d, x);
  }

  /** The concrete case `(4, 64, 64) -> (3, 512, 512)`. */
  lemma DecoderShape64()
    ensures ApplyDecoder(NewDecoder(), Shape(4, 64, 64)) == Ok(Shape(3, 512, 512))
  {
    DecoderShape(Shape(4, 64, 64));
  }

  // ---------------------------------------------------------------------------
  // Autoencoder
  // ---------------------------------------------------------------------------

  datatype Autoencoder = Autoencoder(encoder: Encoder, decoder: Decoder, quantConv: Conv2d, postQuantConv: Conv2d)

  function NewAutoencoder(): Autoencoder
  {
    Autoencoder(NewEncoder(), NewDecoder(), Conv1x1(8, 8), Conv1x1(4, 4))
  }

  /** `latent[:, 0:4]`: the first four channels (the means), clamped like a Python slice. */
  function TakeMeans(x: Shape): Shape
  {
    Shape(if x.c <= 4 then x.c else 4, x.h, x.w)
  }

  /** `AutoencoderKL.__call__`: encode, keep the means, decode. */
  function ApplyAutoencoder(ae: Autoencoder, x: Shape): Result<Shape, ShapeError>
  {
    var z :- ApplyEncoder(ae.encoder, x);
    var q :- ApplyConv(ae.quantConv, z);
    var means := TakeMeans(q);
    var p :- ApplyConv(ae.postQuantConv, means);
    ApplyDecoder(ae.decoder, p)
  }

  /** The reconstruction pass's shape from the shape behaviour of its encoder and decoder. */
  lemma AutoencoderCompose(ae: Autoencoder, x: Shape)
    requires ae.quantConv == Conv1x1(8, 8) && ae.postQuantConv == Conv1x1(4, 4)
    requires forall y :: ApplyEncoder(ae.encoder, y).Ok? <==> y.c == 3 && y.h >= 8 && y.w >= 8
    requires forall y :: ApplyEncoder(ae.encoder, y).Ok? ==> ApplyEncoder(ae.encoder, y).value == Shape(8, y.h / 8, y.w / 8)
    requires forall y :: ApplyDecoder(ae.decoder, y).Ok? <==> y.c == 4 && y.h >= 1 && y.w >= 1
    requires forall y :: ApplyDecoder(ae.decoder, y).Ok? ==> ApplyDecoder(ae.decoder, y).value == Shape(3, 8 * y.h, 8 * y.w)
    ensures ApplyAutoencoder(ae, x).Ok? <==> x.c == 3 && x.h >= 8 && x.w >= 8
    ensures ApplyAutoencoder(ae, x).Ok? ==> ApplyAutoencoder(ae, x).value == Shape(3, 8 * (x.h / 8), 8 * (x.w / 8))
  {
  }

  /**
   * The reconstruction pass accepts `(3, h, w)` with `h, w >= 8` and returns
   * `(3, 8 * (h / 8), 8 * (w / 8))`: it preserves the shape exactly when `h`
   * and `w` are multiples of 8.
   */
  lemma AutoencoderShape(x: Shape)
    ensures ApplyAutoencoder(NewAutoencoder(), x).Ok? <==> x.c == 3 && x.h >= 8 && x.w >= 8
    ensures ApplyAutoencoder(NewAutoencoder(), x).Ok? ==>
              ApplyAutoencoder(NewAutoencoder(), x).value == Shape(3, 8 * (x.h / 8), 8 * (x.w / 8))
    ensures ApplyAutoencoder(NewAutoencoder(), x).Ok? ==>
              (ApplyAutoencoder(NewAutoencoder(), x).value == x <==> x.h % 8 == 0 && x.w % 8 == 0)
  {
    var ae := NewAutoencoder();
    forall y
      ensures ApplyEncoder(ae.encoder, y).Ok? <==> y.c == 3 && y.h >= 8 && y.w >= 8
      ensures ApplyEncoder(ae.encoder, y).Ok? ==> ApplyEncoder(ae.encoder, y).value == Shape(8, y.h / 8, y.w / 8)
    {
      EncoderShape(y);
    }
    forall y
      ensures ApplyDecoder(ae.decoder, y).Ok? <==> y.c == 4 && y.h >= 1 && y.w >= 1
      ensures ApplyDecoder(ae.decoder, y).Ok? ==> ApplyDecoder(ae.decoder, y).value == Shape(3, 8 * y.h, 8 * y.w)
    {
      DecoderShape(y);
    }
    AutoencoderCompose(ae, x);
  }

  /**
   * A latent `(4, h, w)` taken through `post_quant_conv`, the decoder, the
   * encoder and `quant_conv`, keeping the means, comes back as `(4, h, w)`.
   */
  lemma LatentRoundTripShape(h: nat, w: nat)
    requires h >= 1 && w >= 1
    ensures var ae := NewAutoencoder();
            var z := Shape(4, h, w);
            && ApplyConv(ae.postQuantConv, z) == Ok(z)
            && ApplyDecoder(ae.decoder, z) == Ok(Shape(3, 8 * h, 8 * w))
            && ApplyEncoder(ae.encoder, Shape(3, 8 * h, 8 * w)) == Ok(Shape(8, h, w))
            && ApplyConv(ae.quantConv, Shape(8, h, w)) == Ok(Shape(8, h, w))
            && TakeMeans(Shape(8, h, w)) == z
  {
    var ae := NewAutoencoder();
    DecoderShape(Shape(4, h, w));
    EncoderShape(Shape(3, 8 * h, 8 * w));
    assert (8 * h) / 8 == h && (8 * w) / 8 == w;
    assert ApplyEncoder(ae.encoder, Shape(3, 8 * h, 8 * w)) == Ok(Shape(8, h, w));
    assert ApplyConv(ae.quantConv, Shape(8, h, w)) == Ok(Shape(8, h, w)) by {
      Conv1x1KeepsSize(8, 8, h);
      Conv1x1KeepsSize(8, 8, w);
    }
    assert ApplyConv(ae.postQuantConv, Shape(4, h, w)) == Ok(Shape(4, h, w)) by {
      Conv1x1KeepsSize(4, 4, h);
      Conv1x1KeepsSize(4, 4, w);
    }
  }
}

=== FILE: wrappers.dfy ===
/** Failure-compatible datatypes shared by the other modules. */
module Wrappers {

  /** An optional value: `None` plays the part of Python's `None`. */
  datatype Option<+T> = None | Some(value: T)

  /** The outcome of an operation that may raise: `Err` stands for the exception. */
  datatype Result<+T, +E> = Ok(value: T) | Err(error: E) {

    predicate IsFailure() {
      Err?
    }

    function PropagateFailure<U>(): Result<U, E>
      requires Err?
    {
      Err(error)
    }

    function Extract(): T
      requires Ok?
    {
      value
    }
  }
}
